=== FILE: README.md ===
# Desktop Athlete: chat, workout and reminder logic in Dafny

This project models the logic core of Desktop Athlete, a web app that plays a
workout video, reminds the user to exercise again after 24 hours, and offers a
chat with an OpenAI assistant through three serverless functions.

The following are modelled as pure functions and proved about:

- The chat page's send operation (`handleSendMessage`). It validates the message, creates or reuses a
  thread, posts the message and creates a run. It then polls the run, replacing the run when it
  dies, and finally lists the thread's messages. The choice of the reply shown on screen is
  modelled too.
- The serverless functions run-thread, create-message and list-messages.
- The workout page's helpers: the MM:SS countdown text, the clamped remaining time, and the choice of
  video URL and title.
- The video player's YouTube id extraction. It is a regular expression, written out as an explicit
  search with JavaScript's backtracking semantics.
- The reminder logic of the notifications component: the 24-hour check, scheduling, completion, the
  mount and permission effects, and the once-only welcome.

The vendor (OpenAI) and the browser are inputs. The vendor's answers to one send are a `Script`:
one answer per request, plus a finite sequence of poll `Tick`s. A send whose script runs out while
the page would still poll ends as "not settled". Timers are a map from timeout id to firing time.
localStorage is a map.

Files:

| file | module |
|---|---|
| `util.dfy` | `Util`: `Option`, JavaScript truthiness of strings, `||` on strings, decimal digits |
| `vendor.dfy` | `Vendor`: runs, statuses, messages, HTTP responses of the functions |
| `run_thread.dfy` | `RunThreadFunction` |
| `create_message.dfy` | `CreateMessageFunction` |
| `list_messages.dfy` | `ListMessagesFunction` |
| `chat.dfy` | `Chat`: the send, the polling loop, the reply shown |
| `workout.dfy` | `Workout` |
| `video.dfy` | `VideoPlayer` |
| `reminders.dfy` | `Reminders` |

A replaced run resets the poll counter to 0 (app/routes/chat.tsx:366). There is no separate budget for retries.

The check after the polling loop is a parameter of `Chat.Send`. `AsWritten` is the page's counter-only check (app/routes/chat.tsx:383). `Intended` is the corrected check from "## Findings".

## Model

| member | source | states |
|---|---|---|
| Chat.Validate | app/routes/chat.tsx:210-221 | A message is refused exactly when it is empty or longer than 800 characters. Empty gives "Please enter a valid message"; too long gives the length message. |
| Chat.ClientRunThread | app/routes/chat.tsx:100-137 | The page's run-thread helper yields a body exactly when the function answered with a 2xx status. Otherwise it yields no body and sets the error: the answer's `error` field or "Failed to create run" for an error status, "Failed to run thread" for a thrown fetch or an error status whose body is not JSON, and "Failed to parse run response" for a 2xx body that is not JSON. |
| Chat.FetchError | app/routes/chat.tsx:80-83 | A request that must succeed fails exactly when it did not answer 2xx. An error status gives the answer's `error` field or the request's fallback message. The same shape is at app/routes/chat.tsx:155-158 and :244-248. |
| Chat.ReplacementId | app/routes/chat.tsx:343-364 | A replacement run id exists exactly when run-thread answered 2xx in the `{run_id}` shape with a non-empty id. |
| Chat.Step | app/routes/chat.tsx:323-381 | One loop iteration. A replacement takes the new run and resets the counter to 0. Anything else keeps the run and costs exactly one attempt. A null or thrown poll leaves the status. A failed run-thread request after a dead poll sets the page's error to the helper's message, and nothing else changes it, so the message survives the rest of the loop. |
| Chat.PollLoop | app/routes/chat.tsx:323-381 | The loop exits only when the status is completed or the counter is spent. A loop that is already finished makes no poll. Running out of script means it would still poll. |
| Chat.LoopRequests | app/routes/chat.tsx:323-381 | n iterations make exactly n retrieve-run requests, the first for the starting run and the second for the run the first iteration left current (the replacement, if there was one), and one run-thread request per poll that found the run dead. A run-thread request always comes directly after a retrieve-run. Every request names the send's thread, and there is no other kind of request. |
| Chat.LoopExitsWithBoundedReplacements | app/routes/chat.tsx:323-381 | If the vendor grants at most r replacements, the loop exits within (10 - attempts) + 10·r polls. |
| Chat.AtMostTenPollsWithoutReplacement | app/routes/chat.tsx:278-283 | Without replacements, the loop starting from 0 attempts polls at most ten times. |
| Chat.PendingThenCompleted | app/routes/chat.tsx:323-381 | Nine in-progress polls and then a completed one leave the loop completed, with the counter at 10. |
| Chat.PendingPolls | app/routes/chat.tsx:323-381 | A run that stays in progress spends the whole counter and exits not completed. |
| Chat.PollVerdict | app/routes/chat.tsx:383-385 | As written, the check after the loop fails exactly when the counter is spent, whatever the status, with "Polling exceeded maximum attempts". |
| Chat.PollVerdictIntended | app/routes/chat.tsx:323-385 | The intended verdict fails exactly when the run did not complete. |
| Chat.Verdict | app/routes/chat.tsx:383-385 | Under the as-written rule the check fails exactly when the counter is spent. Under the intended rule it fails exactly when the run did not complete. A passing check always means the run completed. |
| Chat.VerdictsDisagreeOnlyOnLastAttempt | app/routes/chat.tsx:323-385 | The two verdicts differ exactly when the run completed and the counter is spent. |
| Chat.CompletionOnTenthAttemptReportedAsExhausted | app/routes/chat.tsx:380-385 | As written, a completion seen on the tenth attempt is reported as exhausted polling. |
| Chat.CompletionOnTenthAttemptFailsSend | app/routes/chat.tsx:323-397 | As written, a whole send whose run completes on the tenth attempt shows "Polling exceeded maximum attempts". The user's message stays, and the messages are never listed. |
| Chat.EnsureThread | app/routes/chat.tsx:232-275 | With a thread id, the page only posts the message. Without one, it creates a thread seeded with the message and then posts the message to it. The step succeeds exactly when a thread exists or comes back with an id and the post succeeds. A created thread is kept even if the post fails. A missing `id` fails with "Thread creation failed: ...". Once there is a thread, a failed post fails with the answer's `error` field, "Failed to send message", or the thrown message (`createMessage`, app/routes/chat.tsx:80-83). Nothing else on the page changes. |
| Chat.StartRun | app/routes/chat.tsx:285-320 | The stored run is forgotten, on success and failure alike, and exactly one run-thread request is made. Success requires a 2xx answer carrying `id`. A failed request gives "Failed to create run for assistant response". A 2xx answer without `id` gives "Failed to parse run data". |
| Chat.Finish | app/routes/chat.tsx:383-396 | If the check after the loop fails, the result is "Polling exceeded maximum attempts" and no listing. Otherwise there is one list request. A listing without `messages` gives "Invalid message format received from API". A failed listing gives its error or "Failed to list messages". A 2xx listing is shown as is. |
| Chat.Converse | app/routes/chat.tsx:232-396 | The steps after the user's message is shown (thread, run, polling, listing) leave the conversation and the loading flag alone. At least one request is made. Messages come back only from a final list request. Without a thread and a started run, the send fails without any retrieve-run or list request. |
| Chat.Send | app/routes/chat.tsx:210-405 | With the as-written rule, this is the page's send as coded. A refused message sets only the error and makes no request. An accepted one makes requests. Once settled, the page shows either the listed conversation (after a final list request) or an error with the user's message appended, and loading is over. A send that has not settled is still loading. |
| Chat.SendCompletesOnFirstPoll | app/routes/chat.tsx:210-405 | On an existing thread, with either check, a run that completes on the first poll leads to exactly four requests: post, run, retrieve, list. The listed messages are shown with the run recorded and no error. |
| Chat.CompletionOnTenthAttemptListsMessages | app/routes/chat.tsx:323-396 | With the intended check, and whether or not the thread had to be created, a completion on the tenth attempt lists and shows the messages. |
| Chat.NeverCompletingRunExhausts | app/routes/chat.tsx:323-405 | Whether or not the thread had to be created, ten in-progress polls fail the send with exhausted polling under either check. The user's message stays on screen and nothing is listed. |
| Chat.RejectedLoopFailsConverse | app/routes/chat.tsx:383-385 | For any started run on any thread, a loop that exits with the check failing fails the send with exhausted polling and makes no list request. |
| Chat.AcceptedLoopListsMessages | app/routes/chat.tsx:383-396 | For any started run on any thread, a loop that exits with the check passing ends the send with a list request to that thread, and the listed messages are shown. |
| Chat.ReuseAnswerFailsSend | app/routes/chat.tsx:293-320 | On any thread, a 2xx `{run_id}` answer to the first run request fails the send with "Failed to parse run data". Run-thread is the last request, and nothing is polled. |
| Chat.FailureBeforePollingMakesNoPoll | app/routes/chat.tsx:232-320 | If either no thread is obtained or the run is not started, the send shows an error, keeps the user's message and makes no retrieve or list request. |
| Chat.ExpiredRunLivelock | app/routes/chat.tsx:341-367 | When run-thread hands back the same expired run, the counter stays at 0 on every poll, so no script length makes the loop exit. |
| Chat.IntendedAnswersAroundExpiry | netlify/functions/run-thread.ts:24-46 | Under the intended search, a list holding only the expired run gets the created run back whole, and a list with that created run first gets its `{run_id}`. |
| Chat.ExpiredRunRecovers | app/routes/chat.tsx:341-381 | A dead poll answered with a whole run costs an attempt and keeps polling the expired run. A second dead poll answered with that run's `{run_id}` adopts it and resets the counter. Its completion ends the loop after three polls, the last retrieving the created run. |
| Chat.ExpiredRunRecoversIntended | app/routes/chat.tsx:341-381 | With the intended run-thread search and a vendor that lists the run it created, an expiry costs one wasted poll. The page then adopts the created run, and the loop ends on its completion with 1 attempt counted. |
| Chat.ConverseOnExistingThread | app/routes/chat.tsx:232-396 | On an existing thread with a started run and an accepted loop, the requests are post, run-thread, the loop's polls and one listing. The page keeps the loop's run and error and shows the listed messages. |
| Chat.ExpiredRunRecoversSend | app/routes/chat.tsx:210-405 | The recovery as a whole send on an existing thread, under either check: eight requests, the created run recorded, no error and the listed messages shown. |
| Chat.ExpiredRunRecoversSendIntended | app/routes/chat.tsx:210-405 | The same send with the intended run-thread search answering the two dead polls. |
| Chat.AssistantMessages | app/routes/chat.tsx:505 | The filter keeps exactly the assistant messages: each result is an assistant message from the list, and no assistant message is dropped. A list of assistant messages only is kept whole and in order. |
| Chat.AssistantMessagesAppend | app/routes/chat.tsx:505 | Filtering a list made of two parts gives the filtered first part followed by the filtered second part, so the filter keeps the list's order. |
| Chat.LatestReply | app/routes/chat.tsx:505-508 | The reply shown is the first assistant message in list order. There is none exactly when no message is from the assistant. |
| Chat.LatestReplyIsFirstOfFilter | app/routes/chat.tsx:505-508 | The search agrees with element 0 of the filtered list. It finds none exactly when the filtered list is empty. |
| RunThreadFunction.FirstActive | netlify/functions/run-thread.ts:26-28 | The search finds the first run in list order that is not completed, failed or cancelled. |
| RunThreadFunction.Handle | netlify/functions/run-thread.ts:12-54 | Missing parameters give 400 with no vendor call. Otherwise the runs are listed first. An active run is reused as `{run_id}` without creating one. With no active run, exactly one run is created and returned whole. Any thrown error gives 500. Every 200 carries a run in one of the two shapes. |
| RunThreadFunction.CreatesAtMostOneRun | netlify/functions/run-thread.ts:25-41 | At most one run is created. One is created exactly when the parameters are present, the list succeeded and no run is active. |
| RunThreadFunction.ExpiredRunIsReused | netlify/functions/run-thread.ts:26-35 | An expired run first in the list is handed back as `{run_id}`. |
| RunThreadFunction.LiveCandidates | netlify/functions/run-thread.ts:26-28 | The intended candidate list keeps every listed run that is not expired, and nothing else. |
| RunThreadFunction.HandleIntended | netlify/functions/run-thread.ts:24-46 | The intended handler only ever reuses a listed run that is live. With no live run, it creates one. |
| RunThreadFunction.ExpiredRunIsReplacedIntended | netlify/functions/run-thread.ts:24-46 | If the only run is expired, the intended handler answers with a newly created run. |
| RunThreadFunction.CreatedRunIsReusedIntended | netlify/functions/run-thread.ts:24-36 | A live run first in the list is handed back by the intended handler as `{run_id}`, whatever older runs follow, and no run is created. |
| CreateMessageFunction.Refusal | netlify/functions/create-message.ts:19-31 | A missing parameter is refused with the 400 message, and so is a question over 1000 characters. Nothing else is refused. |
| CreateMessageFunction.Handle | netlify/functions/create-message.ts:14-50 | An unparsable body gives 500. Refusals give 400 with no vendor call. Otherwise exactly one user message carrying the question is created, and 200 returns it. A vendor failure gives 500 "Failed to create message". |
| CreateMessageFunction.LengthBoundary | netlify/functions/create-message.ts:26-31 | The limit is inclusive: 1000 characters pass and 1001 are refused. |
| ListMessagesFunction.ContentText | netlify/functions/list-messages.ts:34-37 | String content is kept as it is. Any other content is serialised. |
| ListMessagesFunction.Normalise | netlify/functions/list-messages.ts:34-37 | Every message is kept in order, with role and other fields unchanged and the content made a string. |
| ListMessagesFunction.NormaliseSettles | netlify/functions/list-messages.ts:34-37 | Normalising is idempotent. Messages that already have string content come out unchanged. |
| ListMessagesFunction.Handle | netlify/functions/list-messages.ts:12-50 | A missing thread id gives 400 with no call. Missing data gives 500 "Failed to retrieve messages", and a thrown error gives 500 "Failed to list messages". A 200 carries every listed message, normalised. |
| Workout.FormatTimeRemaining | app/routes/workout.tsx:49-54 | Anything not positive gives "00:00". Otherwise the text is digits, a ':' and two digits. Below 100 minutes it is exactly five characters. From ten minutes on there is no leading zero. Minutes are not capped, so 100 minutes or more widen the text. |
| Workout.FormatReadsBack | app/routes/workout.tsx:49-54 | Reading the countdown text back gives the clamped number of seconds. |
| Workout.SecondsFieldInRange | app/routes/workout.tsx:52-53 | The seconds field is two digits below 60. |
| Workout.RemainingSeconds | app/routes/workout.tsx:64-65 | A remaining time exists exactly when the duration is positive and the current time is not negative. It lies between 0 and the duration. It is 0 exactly when playback reached the end, and otherwise equals duration minus current time. |
| Workout.TickText | app/routes/workout.tsx:63-67 | Without a known duration, or with a negative current time, the text stays as it was. Otherwise it becomes a countdown text. Once playback reaches the end it is "00:00". |
| Workout.TickReadsBack | app/routes/workout.tsx:63-67 | After a tick, the countdown text reads back as the clamped remaining time. |
| Workout.UsableTitle | app/routes/workout.tsx:202-204 | A title is kept exactly when it has more than ten characters. A missing or shorter title becomes "Workout of The Day". |
| Workout.SelectVideo | app/routes/workout.tsx:196-231 | A navigation URL wins: it is shown with the usable navigation title, and both are stored without touching other keys. Without one, the stored URL is shown with the usable stored title, and the store is left alone. Without either, the default video and title are chosen. |
| Workout.RefreshShowsSameVideo | app/routes/workout.tsx:206-224 | A refresh after navigating with a URL shows the same URL and title, and the store is unchanged. |
| Workout.DefaultSelectionPlays | app/routes/workout.tsx:225-229 | The default URL the page falls back to yields the video id "dQw4w9WgXcQ". |
| VideoPlayer.MarkerAt | app/components/VideoPlayer.tsx:24 | Each alternative of group 1 matches at a position exactly when its text is there. That is "youtu", any character but a line terminator, "be/"; or "v/", "u/" with a word character and '/', "embed/", "watch?v=" or "&v=". The result is the length of the alternative that matched, or 0. |
| VideoPlayer.LineEnd | app/components/VideoPlayer.tsx:24 | The leading `.*` reaches exactly up to the first line terminator. |
| VideoPlayer.LastMarkerAtOrBelow | app/components/VideoPlayer.tsx:24-25 | The search finds the last position at or below a bound where a marker matches. |
| VideoPlayer.Run | app/components/VideoPlayer.tsx:24 | Group 2 is the longest run of characters other than '#', '&' and '?'. |
| VideoPlayer.CaptureAt | app/components/VideoPlayer.tsx:24-26 | The id after a marker is the group-2 run if it has exactly eleven characters, and empty otherwise. |
| VideoPlayer.GetYouTubeVideoId | app/components/VideoPlayer.tsx:23-27 | The result is empty or eleven characters, never contains '#', '&' or '?', and is empty when no marker can start a match. |
| VideoPlayer.LastMarkerDecides | app/components/VideoPlayer.tsx:24-26 | The result depends only on the last marker start. |
| VideoPlayer.NonEmptyComesFromLastMarker | app/components/VideoPlayer.tsx:24-26 | A non-empty result is the run after a marker start that has no later marker start. |
| VideoPlayer.IdAtEnd | app/components/VideoPlayer.tsx:24-26 | On one line, eleven id characters ending the URL after the last marker are the result. |
| VideoPlayer.DefaultVideoId | app/components/VideoPlayer.tsx:23-27 | The default workout URL yields "dQw4w9WgXcQ". |
| VideoPlayer.EarlierMarkerIgnored | app/components/VideoPlayer.tsx:24-26 | A later "v/" hides a valid id after an earlier "youtu.be/", so the result is empty. |
| Reminders.Check24HoursPassed | app/components/Notifications.tsx:87-96 | With no stored workout the check is false. Otherwise it holds exactly when at least 86 400 000 ms have passed. |
| Reminders.ClearStoredTimeout | app/components/Notifications.tsx:102-106 | Exactly the stored timeout is cancelled, and all others are kept with their firing times. With the one-reminder invariant, nothing remains. |
| Reminders.ScheduleNextReminder | app/components/Notifications.tsx:99-130 | The stored timeout is cleared even when nothing is scheduled. With a stored workout, the reminder target is the workout time plus one day. It fires at the later of now and the target, and the new id is stored. Under the one-reminder invariant (the component's only `setTimeout` is the one at app/components/Notifications.tsx:119), the invariant is kept and the new timeout is the only one pending. |
| Reminders.OneReminderIsAtMostOne | app/components/Notifications.tsx:102-126 | The invariant leaves at most one pending timeout. |
| Reminders.RecordWorkoutCompletion | app/components/Notifications.tsx:79-84 | The workout is stamped with now, the next reminder is due exactly one day later. Under the one-reminder invariant, it is the only timeout pending. |
| Reminders.FireReminder | app/components/Notifications.tsx:119-123 | The fired timeout is gone. The reminder shows exactly when permission is granted and 24 hours have passed. |
| Reminders.ScheduledReminderIsDue | app/components/Notifications.tsx:108-123 | A scheduled reminder firing on time shows exactly when permission is granted. |
| Reminders.CompletionThenReminder | app/components/Notifications.tsx:79-123 | After a workout, a firing less than a day later shows nothing. The firing a day later shows the reminder when permitted. |
| Reminders.Mount | app/components/Notifications.tsx:133-164 | Nothing happens without permission. With it, a reminder shows exactly when 24 hours have passed, and the welcome flag gets stored. The next reminder is always scheduled on the flagged browser, and the one-reminder invariant is kept. The welcome shows only if the flag was absent and the render's own permission state is granted. |
| Reminders.PermissionChanged | app/components/Notifications.tsx:175-181 | The welcome shows exactly when the status is granted and the flag is absent. Then the flag is stored and the next reminder is scheduled. Otherwise nothing changes. |
| Reminders.Replay | app/components/Notifications.tsx:133-181 | Applying events in order: no events change nothing, and each event shows the welcome at most once. |
| Reminders.WelcomeAtMostOnce | app/components/Notifications.tsx:139-181 | Over any sequence of events the welcome is shown at most once, and never once the flag is stored. |
| Reminders.WelcomeLostOnFirstMount | app/components/Notifications.tsx:139-144 | As written, the first mount with permission granted stores the flag without showing the welcome, and nothing later shows it. |
| Reminders.MountIntended | app/components/Notifications.tsx:133-164 | With the browser's permission used for the welcome check, the welcome shows exactly when permission is granted and the flag is absent. |
| Reminders.WelcomeShownOnFirstMountIntended | app/components/Notifications.tsx:139-144 | With the intended mount, the first mount shows the welcome, and nothing later shows it again. |

## Left out

- Network, HTTP and the OpenAI SDK are left out: every vendor or function answer is an input. Timeouts, the SDK's own retries and the 1.5-second waits between polls are not modelled.
- The create-thread and retrieve-run functions are not part of this model. Their answers reach the page as `Script` inputs.
- `sanitizeInput` is a parameter of `Chat.Send`, and `trackEvent` is left out: neither affects the modelled state.
- The mirroring of the thread and run ids to localStorage (`chat-thread-id`, `chat-run-id`) is left out. Page state holds them.
- Rendering is left out: the JSX, Markdown, document titles, the theme, and the JSON parsing of the reply's content before display. `Chat.LatestReply` picks the message but does not model how it is drawn.
- String lengths count characters, whereas JavaScript counts UTF-16 code units. The two differ only outside the Basic Multilingual Plane.
- Non-string JSON values where strings are expected are not modelled, for example a numeric `question` or a non-string URL in navigation state. Such input reaches the code only through malformed requests.
- Workout.FormatTimeRemaining, Workout.RemainingSeconds, Workout.TickText: take whole seconds, because the player's fractional times and `NaN` are floating point. The source formats the floor of the remaining time, so whole seconds are what reach the text. For fractional inputs the model is not exact: the remaining time is computed before flooring (app/routes/workout.tsx:63-64), and a duration below one second passes the `> 0` guard.
- Reminders: the browser's Notification API, the timer queue's real-time behaviour and `parseInt` of stored strings are left out. Stored values are integers, and a timeout is an id with a firing time.
- Reminders.Check24HoursPassed: stated on integer milliseconds. The source divides by the length of an hour in floating point, which agrees for integer inputs.
- Concurrency is left out: two sends overlapping is not modelled. A send runs to the end of its script.
- Chat.LoopExitsWithBoundedReplacements: proves termination only under a bound on replacements. As written, the page grants replacements without limit, and Chat.ExpiredRunLivelock shows the consequence.
- The page's 800-character limit and the function's 1000-character limit are both modelled, each where it applies. The page never sends a question the function would refuse for length.

## Findings

| source | as written | input that shows it | evidently intended | confidence | as-written member | corrected member |
|---|---|---|---|---|---|---|
| app/routes/chat.tsx:380-385 | The loop counts the poll that sees "completed". The verdict then checks only the counter. | Nine polls answering in_progress, then one answering completed. The counter reaches 10 and the send fails with "Polling exceeded maximum attempts". | Fail only when the run did not complete. `Chat.Send` with the `Intended` rule uses this check, and `Chat.CompletionOnTenthAttemptListsMessages` shows that the same send then lists the messages. | medium, not executed | Chat.CompletionOnTenthAttemptFailsSend | Chat.PollVerdictIntended |
| app/components/Notifications.tsx:139-144 | On mount, the welcome is decided by the permission state of the first render, which is still null. The welcome flag is stored anyway. | First visit with notification permission already granted: no welcome is shown, and the stored flag suppresses it forever. | Show the welcome on the first mount when the browser's permission is granted. | medium, not executed | Reminders.WelcomeLostOnFirstMount | Reminders.MountIntended |
| netlify/functions/run-thread.ts:26-28 | The active-run filter excludes completed, failed and cancelled, but not expired. | A thread whose newest run has expired. The page asks for a new run and gets the same expired run back as `{run_id}`, and it resets its counter. The loop never ends. | Reuse only runs that can still progress, and create a new run otherwise. The page reads a replacement only from the `{run_id}` shape (app/routes/chat.tsx:353), so the created run is not adopted on the poll that creates it, and that poll costs an attempt. On the next dead poll the vendor lists the created run, and the fixed search hands it back as `{run_id}`. The page adopts it, and the send completes (`Chat.ExpiredRunRecoversIntended`, `Chat.ExpiredRunRecoversSendIntended`). | medium, not executed | Chat.ExpiredRunLivelock | RunThreadFunction.HandleIntended |

=== FILE: chat.dfy ===
/** The chat page's send operation (`handleSendMessage`): validate the
    message, create or reuse a thread, post the message, create a run, poll
    the run until it completes (replacing it when it dies), then list the
    thread's messages. The vendor is an abstract script of answers, one per
    request the page makes; waits between polls do nothing here. */
module Chat {
  import opened Util
  import opened Vendor
  import RunThreadFunction

  const MaxMessageLength: nat := 800
  const MaxPollingAttempts: nat := 10

  const InvalidMessage: string := "Please enter a valid message"
  const MessageTooLong: string := "Message too long. Maximum 800 characters allowed."
  const ThreadFailed: string := "Failed to create thread"
  const NoThreadId: string := "Thread creation failed: No thread_id returned from API"
  const SendFailed: string := "Failed to send message"
  const RunRequestFailed: string := "Failed to run thread"
  const RunRefused: string := "Failed to create run"
  const RunUnparsable: string := "Failed to parse run response"
  const NoRun: string := "Failed to create run for assistant response"
  const RunDataInvalid: string := "Failed to parse run data"
  const PollingExhausted: string := "Polling exceeded maximum attempts"
  const ListFailed: string := "Failed to list messages"
  const BadMessageFormat: string := "Invalid message format received from API"

  /** A request to one of the serverless functions, as the page sees it: the
      fetch throws (with the error's message), the function answers with an
      error status (and maybe an `error` field), or it answers successfully
      with a parsed body. */
  datatype Fetch<+T> = FetchThrew(message: string) | HttpError(error: Option<string>) | HttpOk(value: T)

  /** The run-thread request: network failure, an answer with a JSON body, or
      an answer whose body is not JSON. */
  datatype RunFetch = NetworkError | Answered(response: Response) | UnparsableBody(statusCode: int)

  /** One poll of the run's status: the request throws, the body is `null`,
      or a run with a status comes back. */
  datatype Poll = PollThrew | PollNull | PollRun(status: RunStatus)

  /** What the vendor answers during one iteration of the polling loop: the
      poll, and the run-thread answer used only if the run turned out dead. */
  datatype Tick = Tick(poll: Poll, replacement: RunFetch)

  /** The vendor's answers to one send, in the order they are asked for. */
  datatype Script = Script(
    thread: Fetch<Option<string>>,
    post: Fetch<()>,
    firstRun: RunFetch,
    ticks: seq<Tick>,
    list: Fetch<Option<seq<Message<string>>>>)

  /** The requests the page makes, in order. */
  datatype Request =
    | CreateThreadReq(seed: string)
    | CreateMessageReq(threadId: string, text: string)
    | RunThreadReq(threadId: string)
    | RetrieveRunReq(threadId: string, runId: string)
    | ListMessagesReq(threadId: string)

  /** The page state the send reads and writes. */
  datatype Ui = Ui(
    messages: seq<Message<string>>,
    error: Option<string>,
    isLoading: bool,
    threadId: Option<string>,
    runId: Option<string>)

  // ---------------------------------------------------------------------
  // Validation

  /** The refusal for a sanitized message, if any. */
  function Validate(text: string): (r: Option<string>)
    ensures r.Some? <==> text == "" || |text| > MaxMessageLength
    ensures text == "" ==> r == Some(InvalidMessage)
    ensures text != "" && |text| > MaxMessageLength ==> r == Some(MessageTooLong)
  {
    if text == "" then Some(InvalidMessage)
    else if |text| > MaxMessageLength then Some(MessageTooLong)
    else None
  }

  // ---------------------------------------------------------------------
  // The client side of run-thread

  /** The answer's `id` field (only a full run object has one). */
  function IdField(b: Body): Option<string> {
    if b.RunBody? then Some(b.run.id) else None
  }

  /** The answer's `run_id` field (only the reuse answer has one). */
  function RunIdField(b: Body): Option<string> {
    if b.RunIdBody? then Some(b.run_id) else None
  }

  function ErrorField(b: Body): Option<string> {
    if b.ErrorBody? then Some(b.error) else None
  }

  /** `runThread` returns the parsed body or null, and on failure sets the
      page's error message itself. */
  datatype RunCall = RunCall(data: Option<Body>, error: Option<string>)

  function ClientRunThread(f: RunFetch): (c: RunCall)
    ensures c.data.Some? <==> f.Answered? && Ok(f.response)
    ensures c.data.Some? ==> c.data.value == f.response.body && c.error.None?
    ensures c.data.None? ==> c.error.Some? && c.error.value != ""
    ensures f.Answered? && !Ok(f.response) ==> c.error == Some(OrElse(ErrorField(f.response.body), RunRefused))
    // a thrown fetch, or a body that is not JSON: the parse message only
    // when the status said success
    ensures f.NetworkError? ==> c.error == Some(RunRequestFailed)
    ensures f.UnparsableBody? ==>
      c.error == Some(if 200 <= f.statusCode <= 299 then RunUnparsable else RunRequestFailed)
  {
    match f
    case NetworkError => RunCall(None, Some(RunRequestFailed))
    case UnparsableBody(code) =>
      if 200 <= code <= 299 then RunCall(None, Some(RunUnparsable)) else RunCall(None, Some(RunRequestFailed))
    case Answered(resp) =>
      if Ok(resp) then RunCall(Some(resp.body), None)
      else RunCall(None, Some(OrElse(ErrorField(resp.body), RunRefused)))
  }

  /** The id a replacement run contributes: present only when the answer
      came back and carries a non-empty `run_id`. */
  function ReplacementId(f: RunFetch): (r: Option<string>)
    ensures r.Some? ==> r.value != ""
    ensures r.Some? <==> f.Answered? && Ok(f.response) && f.response.body.RunIdBody? && f.response.body.run_id != ""
  {
    var c := ClientRunThread(f);
    if c.data.Some? && Truthy(RunIdField(c.data.value)) then RunIdField(c.data.value) else None
  }

  // ---------------------------------------------------------------------
  // The polling loop

  predicate IsDead(s: RunStatus) {
    s == Expired || s == Failed || s == Cancelled
  }

  /** The loop's variables: the current run, the last status seen (`None`
      while still "pending"), the attempt counter, and the page's error
      message as the loop leaves it. */
  datatype Loop = Loop(runId: string, status: Option<RunStatus>, attempts: nat, error: Option<string>)

  predicate Continues(l: Loop) {
    l.status != Some(Completed) && l.attempts < MaxPollingAttempts
  }

  /** An iteration replaces the run when the poll reports a dead status and
      run-thread answers with a `run_id`. */
  predicate Replaces(t: Tick) {
    t.poll.PollRun? && IsDead(t.poll.status) && ReplacementId(t.replacement).Some?
  }

  /** One iteration of the loop. */
  function Step(l: Loop, t: Tick): (l': Loop)
    // a replacement takes over the run and resets the counter
    ensures Replaces(t) ==> l'.runId == ReplacementId(t.replacement).value && l'.attempts == 0
    // anything else costs exactly one attempt and keeps the run
    ensures !Replaces(t) ==> l'.runId == l.runId && l'.attempts == l.attempts + 1
    // a null run or a thrown poll leaves the status as it was
    ensures !t.poll.PollRun? ==> l'.status == l.status && l'.error == l.error
    ensures t.poll.PollRun? ==> l'.status == Some(t.poll.status)
    // only a failed run-thread request changes the page's error message
    ensures l'.error != l.error ==>
      t.poll.PollRun? && IsDead(t.poll.status) && l'.error == ClientRunThread(t.replacement).error
    // and a failed run-thread request after a dead poll does set it; the
    // message stays until something else overwrites it
    ensures t.poll.PollRun? && IsDead(t.poll.status) && ClientRunThread(t.replacement).error.Some? ==>
      l'.error == ClientRunThread(t.replacement).error
    ensures ClientRunThread(t.replacement).error.None? ==> l'.error == l.error
  {
    match t.poll
    case PollThrew => l.(attempts := l.attempts + 1)
    case PollNull => l.(attempts := l.attempts + 1)
    case PollRun(s) =>
      if IsDead(s) then
        var c := ClientRunThread(t.replacement);
        var error := if c.error.Some? then c.error else l.error;
        match ReplacementId(t.replacement)
        case Some(id) => Loop(id, Some(s), 0, error)
        case None => Loop(l.runId, Some(s), l.attempts + 1, error)
      else
        Loop(l.runId, Some(s), l.attempts + 1, l.error)
  }

  /** How the loop ends on a finite script: it exits (with the ticks left
      over), or the script runs out while it would still poll. */
  datatype LoopEnd = Exited(loop: Loop, polls: nat) | OutOfTicks(loop: Loop, polls: nat)

  /** The number of retrieve-run requests in `rs`. */
  function Retrieves(rs: seq<Request>): nat {
    if |rs| == 0 then 0 else (if rs[0].RetrieveRunReq? then 1 else 0) + Retrieves(rs[1..])
  }

  lemma {:induction false} RetrievesAppend(a: seq<Request>, b: seq<Request>)
    ensures Retrieves(a + b) == Retrieves(a) + Retrieves(b)
    decreases |a|
  {
    if |a| > 0 {
      assert (a + b)[1..] == a[1..] + b;
      RetrievesAppend(a[1..], b);
    } else {
      assert a + b == b;
    }
  }

  /** The number of polls among the first `n` ticks that report a dead run. */
  function DeadPolls(ticks: seq<Tick>, n: nat): nat
    requires n <= |ticks|
    decreases n
  {
    if n == 0 then 0
    else (if ticks[0].poll.PollRun? && IsDead(ticks[0].poll.status) then 1 else 0) + DeadPolls(ticks[1..], n - 1)
  }

  /** The requests made by `n` iterations: each polls the current run, and a
      poll that finds the run dead is followed by a run-thread request. */
  function LoopRequests(l: Loop, ticks: seq<Tick>, threadId: string, n: nat): (rs: seq<Request>)
    requires n <= |ticks|
    ensures n > 0 ==> |rs| >= 1 && rs[0] == RetrieveRunReq(threadId, l.runId)
    // the next iteration polls the run the first one left current (the
    // replacement, if the first one replaced the run)
    ensures n >= 2 ==>
      var j := if ticks[0].poll.PollRun? && IsDead(ticks[0].poll.status) then 2 else 1;
      j < |rs| && rs[j] == RetrieveRunReq(threadId, Step(l, ticks[0]).runId)
    // exactly one retrieve-run per iteration, one run-thread per dead poll
    ensures Retrieves(rs) == n
    ensures |rs| == n + DeadPolls(ticks, n)
    // nothing but those two kinds, all on the same thread
    ensures forall i :: 0 <= i < |rs| ==>
      rs[i] == RunThreadReq(threadId) || (rs[i].RetrieveRunReq? && rs[i].threadId == threadId)
    // a run-thread request only ever comes right after a retrieve-run
    ensures forall i :: 0 <= i < |rs| && rs[i].RunThreadReq? ==> 0 < i && rs[i - 1].RetrieveRunReq?
    decreases n
  {
    if n == 0 then []
    else
      var t := ticks[0];
      var here := [RetrieveRunReq(threadId, l.runId)] + (if t.poll.PollRun? && IsDead(t.poll.status) then [RunThreadReq(threadId)] else []);
      var rest := LoopRequests(Step(l, t), ticks[1..], threadId, n - 1);
      RetrievesAppend(here, rest);
      assert Retrieves(here) == 1;
      here + rest
  }

  /** The loop goes on while the run is not seen completed and fewer than
      ten attempts have been made. */
  function PollLoop(l: Loop, ticks: seq<Tick>): (e: LoopEnd)
    ensures e.polls <= |ticks|
    ensures e.Exited? ==> !Continues(e.loop)
    ensures e.OutOfTicks? ==> Continues(e.loop) && e.polls == |ticks|
    ensures !Continues(l) ==> e == Exited(l, 0)
    decreases |ticks|
  {
    if !Continues(l) then Exited(l, 0)
    else if |ticks| == 0 then OutOfTicks(l, 0)
    else
      var e := PollLoop(Step(l, ticks[0]), ticks[1..]);
      match e
      case Exited(l', n) => Exited(l', n + 1)
      case OutOfTicks(l', n) => OutOfTicks(l', n + 1)
  }

  /** The number of iterations in `ticks` that replace the run. */
  function CountReplacements(ticks: seq<Tick>): nat {
    if |ticks| == 0 then 0 else (if Replaces(ticks[0]) then 1 else 0) + CountReplacements(ticks[1..])
  }

  /** Termination, under the hypothesis that the vendor grants at most `r`
      replacements: the loop exits within (10 - attempts) + 10 * r polls. */
  lemma {:induction false} LoopExitsWithBoundedReplacements(l: Loop, ticks: seq<Tick>, r: nat)
    requires l.attempts <= MaxPollingAttempts
    requires CountReplacements(ticks) <= r
    requires |ticks| >= (MaxPollingAttempts - l.attempts) + MaxPollingAttempts * r
    ensures PollLoop(l, ticks).Exited?
    ensures PollLoop(l, ticks).polls <= (MaxPollingAttempts - l.attempts) + MaxPollingAttempts * r
    decreases |ticks|
  {
    if Continues(l) {
      var t := ticks[0];
      var l' := Step(l, t);
      if Replaces(t) {
        assert CountReplacements(ticks[1..]) <= r - 1;
        LoopExitsWithBoundedReplacements(l', ticks[1..], r - 1);
      } else {
        assert CountReplacements(ticks[1..]) <= r;
        LoopExitsWithBoundedReplacements(l', ticks[1..], r);
      }
    }
  }

  /** Without replacements the loop polls at most ten times. */
  lemma AtMostTenPollsWithoutReplacement(l: Loop, ticks: seq<Tick>)
    requires l.attempts == 0 && CountReplacements(ticks) == 0 && |ticks| >= MaxPollingAttempts
    ensures PollLoop(l, ticks).Exited? && PollLoop(l, ticks).polls <= MaxPollingAttempts
  {
    LoopExitsWithBoundedReplacements(l, ticks, 0);
  }

  // ---------------------------------------------------------------------
  // The verdict after the loop

  /** As written, the check after the loop looks at the counter only: a
      spent counter is reported as exhausted polling. */
  function PollVerdict(l: Loop): (r: Option<string>)
    requires !Continues(l)
    ensures r.Some? <==> l.attempts >= MaxPollingAttempts
    ensures r.Some? ==> r.value == PollingExhausted
    ensures r.None? ==> l.status == Some(Completed) && l.attempts < MaxPollingAttempts
    ensures l.status != Some(Completed) ==> r == Some(PollingExhausted)
  {
    if l.attempts >= MaxPollingAttempts then Some(PollingExhausted) else None
  }

  /** The verdict the loop evidently intends: a failure exactly when the
      run did not complete. */
  function PollVerdictIntended(l: Loop): (r: Option<string>)
    ensures r.None? <==> l.status == Some(Completed)
    ensures r.Some? ==> r.value == PollingExhausted
  {
    if l.status != Some(Completed) then Some(PollingExhausted) else None
  }

  /** The two verdicts differ exactly on a completion seen on the tenth
      attempt, which the page reports as exhaustion. */
  lemma VerdictsDisagreeOnlyOnLastAttempt(l: Loop)
    requires !Continues(l)
    ensures PollVerdict(l) != PollVerdictIntended(l) <==>
      l.status == Some(Completed) && l.attempts >= MaxPollingAttempts
  {
  }

  /** Which check follows the loop: the counter-only one the page is
      written with, or the intended one. */
  datatype VerdictRule = AsWritten | Intended

  function Verdict(l: Loop, rule: VerdictRule): (r: Option<string>)
    requires !Continues(l)
    ensures r.Some? ==> r.value == PollingExhausted
    ensures r.None? ==> l.status == Some(Completed)
    ensures rule == AsWritten ==> (r.Some? <==> l.attempts >= MaxPollingAttempts)
    ensures rule == Intended ==> (r.Some? <==> l.status != Some(Completed))
  {
    if rule == AsWritten then PollVerdict(l) else PollVerdictIntended(l)
  }

  // ---------------------------------------------------------------------
  // The whole send

  /** How a stage of the send ends: `failure` is the error it throws, if any. */
  datatype Phase = Phase(ui: Ui, requests: seq<Request>, failure: Option<string>)

  /** The error of a request that has to succeed: the thrown error's
      message, or the function's `error` field, or the given fallback. */
  function FetchError<T>(f: Fetch<T>, fallback: string): (e: Option<string>)
    ensures f.HttpOk? <==> e.None?
    ensures f.HttpError? ==> e == Some(OrElse(f.error, fallback))
    ensures f.FetchThrew? ==> e == Some(f.message)
  {
    match f
    case FetchThrew(m) => Some(m)
    case HttpError(e) => Some(OrElse(e, fallback))
    case HttpOk(_) => None
  }

  /** The thread step succeeds: a thread exists or is created with an id,
      and the message is posted to it. */
  predicate ThreadReady(ui: Ui, v: Script) {
    (Truthy(ui.threadId) || (v.thread.HttpOk? && Truthy(v.thread.value))) && v.post.HttpOk?
  }

  /** The thread the send talks to once the thread step has succeeded. */
  function ThreadOf(ui: Ui, v: Script): string
    requires ThreadReady(ui, v)
  {
    if Truthy(ui.threadId) then ui.threadId.value else v.thread.value.value
  }

  /** Run-thread's first answer is a 2xx run carrying an `id`. */
  predicate RunStarts(v: Script) {
    v.firstRun.Answered? && Ok(v.firstRun.response) && Truthy(IdField(v.firstRun.response.body))
  }

  function FirstRunId(v: Script): string
    requires RunStarts(v)
  {
    IdField(v.firstRun.response.body).value
  }

  /** Thread handling: with no thread, create one seeded with the message and
      then post the message to it again; with a thread, only post the
      message. A created thread is kept even if a later step fails. */
  function EnsureThread(ui: Ui, text: string, v: Script): (p: Phase)
    ensures p.ui == ui.(threadId := p.ui.threadId)
    ensures p.failure.None? <==> ThreadReady(ui, v)
    ensures p.failure.None? ==> p.ui.threadId == Some(ThreadOf(ui, v))
    ensures Truthy(ui.threadId) ==>
      p.ui.threadId == ui.threadId && p.requests == [CreateMessageReq(ui.threadId.value, text)]
    ensures !Truthy(ui.threadId) && v.thread.HttpOk? && Truthy(v.thread.value) ==>
      p.ui.threadId == v.thread.value
      && p.requests == [CreateThreadReq(text), CreateMessageReq(v.thread.value.value, text)]
    ensures !Truthy(ui.threadId) && !(v.thread.HttpOk? && Truthy(v.thread.value)) ==>
      p.ui == ui && p.requests == [CreateThreadReq(text)]
      && p.failure == (if v.thread.HttpOk? then Some(NoThreadId) else FetchError(v.thread, ThreadFailed))
    // once there is a thread, a failed post reports the answer's `error`
    // field, "Failed to send message", or the thrown message
    ensures (Truthy(ui.threadId) || (v.thread.HttpOk? && Truthy(v.thread.value))) && !v.post.HttpOk? ==>
      p.failure == FetchError(v.post, SendFailed)
  {
    if Truthy(ui.threadId) then
      Phase(ui, [CreateMessageReq(ui.threadId.value, text)], FetchError(v.post, SendFailed))
    else
      match v.thread
      case FetchThrew(m) => Phase(ui, [CreateThreadReq(text)], Some(m))
      case HttpError(e) => Phase(ui, [CreateThreadReq(text)], Some(OrElse(e, ThreadFailed)))
      case HttpOk(id) =>
        if !Truthy(id) then Phase(ui, [CreateThreadReq(text)], Some(NoThreadId))
        else Phase(ui.(threadId := id), [CreateThreadReq(text), CreateMessageReq(id.value, text)], FetchError(v.post, SendFailed))
  }

  /** Run creation: forget the previous run, ask run-thread for a run and
      insist on an `id` field. The request helper may set the page's error
      message on the way. */
  function StartRun(ui: Ui, threadId: string, v: Script): (p: Phase)
    ensures p.requests == [RunThreadReq(threadId)]
    ensures p.ui.messages == ui.messages && p.ui.isLoading == ui.isLoading && p.ui.threadId == ui.threadId
    ensures p.failure.None? <==> v.firstRun.Answered? && Ok(v.firstRun.response) && Truthy(IdField(v.firstRun.response.body))
    ensures p.failure.None? ==> p.ui.runId == IdField(v.firstRun.response.body) && p.ui.error == ui.error
    // the previous run is forgotten whatever the answer
    ensures p.failure.Some? ==> p.ui.runId.None?
    ensures ClientRunThread(v.firstRun).data.None? ==> p.failure == Some(NoRun)
    ensures ClientRunThread(v.firstRun).data.Some? && !Truthy(IdField(v.firstRun.response.body)) ==>
      p.failure == Some(RunDataInvalid)
  {
    var cleared := ui.(runId := None);
    var c := ClientRunThread(v.firstRun);
    var ui' := if c.error.Some? then cleared.(error := c.error) else cleared;
    match c.data
    case None => Phase(ui', [RunThreadReq(threadId)], Some(NoRun))
    case Some(body) =>
      if !Truthy(IdField(body)) then Phase(ui', [RunThreadReq(threadId)], Some(RunDataInvalid))
      else Phase(ui'.(runId := IdField(body)), [RunThreadReq(threadId)], None)
  }

  /** How the part of the send inside `try` ends. */
  datatype Stage = Listed(messages: seq<Message<string>>) | Broke(error: string) | StillPolling

  datatype Progress = Progress(ui: Ui, requests: seq<Request>, stage: Stage)

  /** After the loop: the verdict under `rule`, then the message listing. */
  function Finish(ui: Ui, threadId: string, l: Loop, v: Script, rule: VerdictRule): (p: Progress)
    requires !Continues(l)
    ensures p.ui == ui && !p.stage.StillPolling?
    // a rejected loop fails without listing
    ensures Verdict(l, rule).Some? ==> p == Progress(ui, [], Broke(PollingExhausted))
    // an accepted one lists once, and shows the messages when they came back
    ensures Verdict(l, rule).None? ==> p.requests == [ListMessagesReq(threadId)]
    ensures p.stage.Listed? <==> Verdict(l, rule).None? && v.list.HttpOk? && v.list.value.Some?
    ensures p.stage.Listed? ==> p.stage.messages == v.list.value.value
    ensures Verdict(l, rule).None? && v.list == HttpOk(None) ==> p.stage == Broke(BadMessageFormat)
    ensures Verdict(l, rule).None? && !v.list.HttpOk? ==> p.stage == Broke(FetchError(v.list, ListFailed).value)
  {
    match Verdict(l, rule)
    case Some(e) => Progress(ui, [], Broke(e))
    case None =>
      var reqs := [ListMessagesReq(threadId)];
      match FetchError(v.list, ListFailed)
      case Some(e) => Progress(ui, reqs, Broke(e))
      case None =>
        match v.list.value
        case None => Progress(ui, reqs, Broke(BadMessageFormat))
        case Some(ms) => Progress(ui, reqs, Listed(ms))
  }

  /** The part of the `try` block after the user's message is shown and
      loading is switched on: thread, run, polling and listing. */
  function Converse(ui: Ui, text: string, v: Script, rule: VerdictRule): (p: Progress)
    ensures p.ui.messages == ui.messages && p.ui.isLoading == ui.isLoading
    ensures |p.requests| >= 1
    // the messages are shown only as listed, by a final list request
    ensures p.stage.Listed? ==>
      v.list == HttpOk(Some(p.stage.messages)) && p.requests[|p.requests| - 1].ListMessagesReq?
    // polls happen only after a thread and a run were obtained
    ensures !(ThreadReady(ui, v) && RunStarts(v)) ==>
      p.stage.Broke? && forall i :: 0 <= i < |p.requests| ==> !p.requests[i].RetrieveRunReq? && !p.requests[i].ListMessagesReq?
  {
    var t := EnsureThread(ui, text, v);
    if t.failure.Some? then Progress(t.ui, t.requests, Broke(t.failure.value))
    else
      var threadId := t.ui.threadId.value;
      var r := StartRun(t.ui, threadId, v);
      if r.failure.Some? then Progress(r.ui, t.requests + r.requests, Broke(r.failure.value))
      else
        var start := Loop(r.ui.runId.value, None, 0, r.ui.error);
        var e := PollLoop(start, v.ticks);
        var polled := t.requests + r.requests + LoopRequests(start, v.ticks, threadId, e.polls);
        var ui' := r.ui.(runId := Some(e.loop.runId), error := e.loop.error);
        if e.OutOfTicks? then Progress(ui', polled, StillPolling)
        else
          var f := Finish(ui', threadId, e.loop, v, rule);
          Progress(f.ui, polled + f.requests, f.stage)
  }

  /** The user's message as it is added to the conversation. */
  function UserMessage(text: string): Message<string> {
    Message("user", text, map[])
  }

  /** The page once the user's message is shown and loading is on. */
  function Shown(ui: Ui, text: string): Ui {
    ui.(isLoading := true, error := None, messages := ui.messages + [UserMessage(text)])
  }

  /** The page after a send, every request it made, and whether it settled
      (false when the script ran out of poll ticks first). */
  datatype Outcome = Outcome(ui: Ui, requests: seq<Request>, settled: bool)

  /** `handleSendMessage`, with `sanitize` standing for the sanitizer; with
      `rule == AsWritten` it is the page as written, with `rule == Intended`
      the check after the loop is the corrected one. */
  function Send(ui: Ui, userMessage: string, sanitize: string -> string, v: Script, rule: VerdictRule): (o: Outcome)
    // a refused message: an error, no request, nothing else changes
    ensures Validate(sanitize(userMessage)).Some? ==>
      o == Outcome(ui.(error := Validate(sanitize(userMessage))), [], true)
    // an accepted message makes requests
    ensures Validate(sanitize(userMessage)).None? ==> |o.requests| >= 1
    // however an accepted message settles, loading is over
    ensures o.settled && Validate(sanitize(userMessage)).None? ==> !o.ui.isLoading
    // a settled send either shows the listed messages or an error with the
    // user's message appended to the conversation
    ensures o.settled && Validate(sanitize(userMessage)).None? ==>
      || (v.list.HttpOk? && v.list.value.Some? && o.ui.messages == v.list.value.value
          && o.requests[|o.requests| - 1].ListMessagesReq?)
      || (o.ui.error.Some? && o.ui.messages == ui.messages + [UserMessage(sanitize(userMessage))])
    ensures !o.settled ==> o.ui.isLoading
  {
    var text := sanitize(userMessage);
    match Validate(text)
    case Some(e) => Outcome(ui.(error := Some(e)), [], true)
    case None =>
      var p := Converse(Shown(ui, text), text, v, rule);
      match p.stage
      case Listed(ms) => Outcome(p.ui.(messages := ms, isLoading := false), p.requests, true)
      case Broke(e) => Outcome(p.ui.(error := Some(e), isLoading := false), p.requests, true)
      case StillPolling => Outcome(p.ui, p.requests, false)
  }

  // ---------------------------------------------------------------------
  // Properties of the loop

  /** A run that stays in progress and completes on the poll that is the
      tenth attempt leaves the loop with a completed status and a spent
      counter. */
  lemma {:induction false} PendingThenCompleted(l: Loop, ticks: seq<Tick>)
    requires l.attempts < MaxPollingAttempts && l.status != Some(Completed)
    requires |ticks| >= MaxPollingAttempts - l.attempts
    requires forall i :: 0 <= i < MaxPollingAttempts - 1 - l.attempts ==> ticks[i].poll == PollRun(InProgress)
    requires ticks[MaxPollingAttempts - 1 - l.attempts].poll == PollRun(Completed)
    ensures PollLoop(l, ticks) == Exited(Loop(l.runId, Some(Completed), MaxPollingAttempts, l.error), MaxPollingAttempts - l.attempts)
    decreases MaxPollingAttempts - l.attempts
  {
    var l' := Step(l, ticks[0]);
    if l.attempts == MaxPollingAttempts - 1 {
      assert l' == Loop(l.runId, Some(Completed), MaxPollingAttempts, l.error);
    } else {
      assert ticks[0].poll == PollRun(InProgress);
      assert l' == Loop(l.runId, Some(InProgress), l.attempts + 1, l.error);
      PendingThenCompleted(l', ticks[1..]);
    }
  }

  /** A run that stays in progress spends the counter: the loop exits after
      the remaining attempts without a completed status. */
  lemma {:induction false} PendingPolls(l: Loop, ticks: seq<Tick>)
    requires l.attempts <= MaxPollingAttempts && l.status != Some(Completed)
    requires |ticks| >= MaxPollingAttempts - l.attempts
    requires forall i :: 0 <= i < MaxPollingAttempts - l.attempts ==> ticks[i].poll == PollRun(InProgress)
    ensures var e := PollLoop(l, ticks);
      e.Exited? && e.loop.status != Some(Completed) && e.loop.attempts == MaxPollingAttempts
      && e.polls == MaxPollingAttempts - l.attempts
    decreases MaxPollingAttempts - l.attempts
  {
    if l.attempts < MaxPollingAttempts {
      assert ticks[0].poll == PollRun(InProgress);
      var l' := Step(l, ticks[0]);
      assert l' == Loop(l.runId, Some(InProgress), l.attempts + 1, l.error);
      PendingPolls(l', ticks[1..]);
    }
  }

  /** Run-thread's answer when the thread's only run has expired. */
  function ExpiredReuseAnswer(threadId: string, asstId: string, runId: string, created: Attempt<Run>): RunFetch {
    Answered(RunThreadFunction.Handle(Some(threadId), Some(asstId), Returned([Run(runId, Expired)]), created).response)
  }

  /** The livelock: when the run expires, run-thread hands the same expired
      run back, the page takes it as a replacement and resets its counter,
      so however many polls the vendor answers the loop never exits. */
  lemma {:induction false} ExpiredRunLivelock(l: Loop, ticks: seq<Tick>, threadId: string, asstId: string, created: Attempt<Run>)
    requires threadId != "" && asstId != "" && l.runId != ""
    requires l.attempts == 0 && l.status != Some(Completed)
    requires forall i :: 0 <= i < |ticks| ==>
      ticks[i] == Tick(PollRun(Expired), ExpiredReuseAnswer(threadId, asstId, l.runId, created))
    ensures PollLoop(l, ticks).OutOfTicks?
    ensures PollLoop(l, ticks).polls == |ticks|
    ensures PollLoop(l, ticks).loop.runId == l.runId && PollLoop(l, ticks).loop.attempts == 0
    decreases |ticks|
  {
    if |ticks| > 0 {
      RunThreadFunction.ExpiredRunIsReused(threadId, asstId, Run(l.runId, Expired), [], created);
      assert [Run(l.runId, Expired)] + [] == [Run(l.runId, Expired)];
      assert Replaces(ticks[0]);
      var l' := Step(l, ticks[0]);
      assert l' == Loop(l.runId, Some(Expired), 0, l.error);
      ExpiredRunLivelock(l', ticks[1..], threadId, asstId, created);
    }
  }

  /** Run-thread's answer under the intended search, given what the
      vendor lists and what it would create. */
  function IntendedAnswer(threadId: string, asstId: string, listed: seq<Run>, created: Attempt<Run>): RunFetch {
    Answered(RunThreadFunction.HandleIntended(Some(threadId), Some(asstId), Returned(listed), created).response)
  }

  /** The two answers the intended search gives around an expiry: with only
      the expired run listed it creates a run and returns it whole; once
      that run is listed (newest first) it hands it back as `{run_id}`. */
  lemma IntendedAnswersAroundExpiry(threadId: string, asstId: string, expiredId: string, created: Run, again: Attempt<Run>)
    requires threadId != "" && asstId != ""
    requires RunThreadFunction.IsLive(created.status)
    ensures IntendedAnswer(threadId, asstId, [Run(expiredId, Expired)], Returned(created))
      == Answered(Response(200, RunBody(created)))
    ensures IntendedAnswer(threadId, asstId, [created, Run(expiredId, Expired)], again)
      == Answered(Response(200, RunIdBody(created.id)))
  {
    RunThreadFunction.ExpiredRunIsReplacedIntended(threadId, asstId, Run(expiredId, Expired), created);
    RunThreadFunction.CreatedRunIsReusedIntended(threadId, asstId, created, [Run(expiredId, Expired)], again);
    assert [created] + [Run(expiredId, Expired)] == [created, Run(expiredId, Expired)];
  }

  /** An expiry survived: the first dead poll is answered with a created
      run, which has no `run_id`, so it costs an attempt and the page polls
      the expired run again; the second dead poll is answered with that
      run's `run_id`, which the page adopts, resetting the counter; the
      created run's completion then ends the loop after three polls, with
      the last retrieve naming the created run. */
  lemma ExpiredRunRecovers(l: Loop, ticks: seq<Tick>, threadId: string, created: Run)
    requires created.id != ""
    requires Continues(l) && l.attempts + 1 < MaxPollingAttempts
    requires |ticks| >= 3
    requires ticks[0] == Tick(PollRun(Expired), Answered(Response(200, RunBody(created))))
    requires ticks[1] == Tick(PollRun(Expired), Answered(Response(200, RunIdBody(created.id))))
    requires ticks[2].poll == PollRun(Completed)
    ensures !Replaces(ticks[0]) && Replaces(ticks[1])
    ensures PollLoop(l, ticks) == Exited(Loop(created.id, Some(Completed), 1, l.error), 3)
    ensures LoopRequests(l, ticks, threadId, 3) == [
      RetrieveRunReq(threadId, l.runId), RunThreadReq(threadId),
      RetrieveRunReq(threadId, l.runId), RunThreadReq(threadId),
      RetrieveRunReq(threadId, created.id)]
  {
    var l1 := Step(l, ticks[0]);
    assert l1 == Loop(l.runId, Some(Expired), l.attempts + 1, l.error);
    var l2 := Step(l1, ticks[1]);
    assert l2 == Loop(created.id, Some(Expired), 0, l.error);
    var l3 := Step(l2, ticks[2]);
    assert l3 == Loop(created.id, Some(Completed), 1, l.error);
    assert ticks[1..][1..] == ticks[2..] && ticks[2..][1..] == ticks[3..];
    assert PollLoop(l3, ticks[3..]) == Exited(l3, 0);
    assert PollLoop(l2, ticks[2..]) == Exited(l3, 1);
    assert PollLoop(l1, ticks[1..]) == Exited(l3, 2);
    var r2 := LoopRequests(l2, ticks[2..], threadId, 1);
    assert r2 == [RetrieveRunReq(threadId, created.id)];
    var r1 := LoopRequests(l1, ticks[1..], threadId, 2);
    assert r1 == [RetrieveRunReq(threadId, l.runId), RunThreadReq(threadId)] + r2;
  }

  /** The fix of run-thread's search is enough: when the run expires, the
      intended handler first creates a run and then, finding it listed,
      hands it back, and the loop ends on that run's completion. */
  lemma ExpiredRunRecoversIntended(l: Loop, ticks: seq<Tick>, threadId: string, asstId: string, created: Run, again: Attempt<Run>)
    requires threadId != "" && asstId != "" && created.id != ""
    requires RunThreadFunction.IsLive(created.status)
    requires Continues(l) && l.attempts + 1 < MaxPollingAttempts
    requires |ticks| >= 3
    requires ticks[0] == Tick(PollRun(Expired), IntendedAnswer(threadId, asstId, [Run(l.runId, Expired)], Returned(created)))
    requires ticks[1] == Tick(PollRun(Expired), IntendedAnswer(threadId, asstId, [created, Run(l.runId, Expired)], again))
    requires ticks[2].poll == PollRun(Completed)
    ensures !Replaces(ticks[0]) && Replaces(ticks[1])
    ensures PollLoop(l, ticks) == Exited(Loop(created.id, Some(Completed), 1, l.error), 3)
    ensures LoopRequests(l, ticks, threadId, 3) == [
      RetrieveRunReq(threadId, l.runId), RunThreadReq(threadId),
      RetrieveRunReq(threadId, l.runId), RunThreadReq(threadId),
      RetrieveRunReq(threadId, created.id)]
  {
    IntendedAnswersAroundExpiry(threadId, asstId, l.runId, created, again);
    ExpiredRunRecovers(l, ticks, threadId, created);
  }

  /** A send on an existing thread whose run starts and whose loop exits
      accepted: the message is posted, the run started, the loop's polls
      made, and the listed messages shown, with the loop's run and error. */
  lemma ConverseOnExistingThread(ui: Ui, text: string, v: Script, rule: VerdictRule, ms: seq<Message<string>>)
    requires Truthy(ui.threadId) && v.post.HttpOk? && RunStarts(v)
    requires var e := PollLoop(Loop(FirstRunId(v), None, 0, ui.error), v.ticks);
      e.Exited? && Verdict(e.loop, rule).None?
    requires v.list == HttpOk(Some(ms))
    ensures var t := ui.threadId.value;
      var start := Loop(FirstRunId(v), None, 0, ui.error);
      var e := PollLoop(start, v.ticks);
      Converse(ui, text, v, rule) == Progress(ui.(runId := Some(e.loop.runId), error := e.loop.error),
        [CreateMessageReq(t, text), RunThreadReq(t)] + LoopRequests(start, v.ticks, t, e.polls) + [ListMessagesReq(t)],
        Listed(ms))
  {
    var t := ui.threadId.value;
    var start := Loop(FirstRunId(v), None, 0, ui.error);
    var e := PollLoop(start, v.ticks);
    var ui' := ui.(runId := Some(e.loop.runId), error := e.loop.error);
    assert EnsureThread(ui, text, v) == Phase(ui, [CreateMessageReq(t, text)], None);
    assert StartRun(ui, t, v) == Phase(ui.(runId := Some(FirstRunId(v))), [RunThreadReq(t)], None);
    assert Finish(ui', t, e.loop, v, rule) == Progress(ui', [ListMessagesReq(t)], Listed(ms));
    assert [CreateMessageReq(t, text)] + [RunThreadReq(t)] == [CreateMessageReq(t, text), RunThreadReq(t)];
  }

  /** The recovery as a whole send on an existing thread, under either
      check after the loop: the page ends up on the created run, with no
      error and the listed conversation shown. */
  lemma ExpiredRunRecoversSend(ui: Ui, userMessage: string, sanitize: string -> string, v: Script, rule: VerdictRule,
                               created: Run, ms: seq<Message<string>>)
    requires Validate(sanitize(userMessage)).None?
    requires Truthy(ui.threadId) && v.post.HttpOk? && RunStarts(v)
    requires created.id != ""
    requires |v.ticks| >= 3
    requires v.ticks[0] == Tick(PollRun(Expired), Answered(Response(200, RunBody(created))))
    requires v.ticks[1] == Tick(PollRun(Expired), Answered(Response(200, RunIdBody(created.id))))
    requires v.ticks[2].poll == PollRun(Completed)
    requires v.list == HttpOk(Some(ms))
    ensures var o := Send(ui, userMessage, sanitize, v, rule);
      var t := ui.threadId.value;
      var first := FirstRunId(v);
      o.settled && o.ui == ui.(messages := ms, isLoading := false, error := None, runId := Some(created.id))
      && o.requests == [CreateMessageReq(t, sanitize(userMessage)), RunThreadReq(t),
                        RetrieveRunReq(t, first), RunThreadReq(t), RetrieveRunReq(t, first), RunThreadReq(t),
                        RetrieveRunReq(t, created.id), ListMessagesReq(t)]
  {
    var text := sanitize(userMessage);
    var t := ui.threadId.value;
    var first := FirstRunId(v);
    ExpiredRunRecovers(Loop(first, None, 0, None), v.ticks, t, created);
    ConverseOnExistingThread(Shown(ui, text), text, v, rule, ms);
  }

  /** The same send with the intended run-thread search answering. */
  lemma ExpiredRunRecoversSendIntended(ui: Ui, userMessage: string, sanitize: string -> string, v: Script, rule: VerdictRule,
                                       asstId: string, created: Run, again: Attempt<Run>, ms: seq<Message<string>>)
    requires Validate(sanitize(userMessage)).None?
    requires Truthy(ui.threadId) && v.post.HttpOk? && RunStarts(v)
    requires asstId != "" && created.id != "" && RunThreadFunction.IsLive(created.status)
    requires |v.ticks| >= 3
    requires v.ticks[0] == Tick(PollRun(Expired), IntendedAnswer(ui.threadId.value, asstId, [Run(FirstRunId(v), Expired)], Returned(created)))
    requires v.ticks[1] == Tick(PollRun(Expired), IntendedAnswer(ui.threadId.value, asstId, [created, Run(FirstRunId(v), Expired)], again))
    requires v.ticks[2].poll == PollRun(Completed)
    requires v.list == HttpOk(Some(ms))
    ensures var o := Send(ui, userMessage, sanitize, v, rule);
      var t := ui.threadId.value;
      var first := FirstRunId(v);
      o.settled && o.ui == ui.(messages := ms, isLoading := false, error := None, runId := Some(created.id))
      && o.requests == [CreateMessageReq(t, sanitize(userMessage)), RunThreadReq(t),
                        RetrieveRunReq(t, first), RunThreadReq(t), RetrieveRunReq(t, first), RunThreadReq(t),
                        RetrieveRunReq(t, created.id), ListMessagesReq(t)]
  {
    IntendedAnswersAroundExpiry(ui.threadId.value, asstId, FirstRunId(v), created, again);
    ExpiredRunRecoversSend(ui, userMessage, sanitize, v, rule, created, ms);
  }

  // ---------------------------------------------------------------------
  // Properties of the whole send

  /** A send on an existing thread whose created run completes on the first
      poll shows the listed conversation: four requests, the run recorded,
      no error, loading over. Either check after the loop accepts it. */
  lemma SendCompletesOnFirstPoll(ui: Ui, userMessage: string, sanitize: string -> string, v: Script, rule: VerdictRule, ms: seq<Message<string>>)
    requires Validate(sanitize(userMessage)).None?
    requires Truthy(ui.threadId) && v.post.HttpOk? && RunStarts(v)
    requires |v.ticks| >= 1 && v.ticks[0].poll == PollRun(Completed)
    requires v.list == HttpOk(Some(ms))
    ensures var o := Send(ui, userMessage, sanitize, v, rule);
      var t := ui.threadId.value;
      var run := FirstRunId(v);
      o.settled && o.ui == ui.(messages := ms, isLoading := false, error := None, runId := Some(run))
      && o.requests == [CreateMessageReq(t, sanitize(userMessage)), RunThreadReq(t), RetrieveRunReq(t, run), ListMessagesReq(t)]
  {
    var t := ui.threadId.value;
    var run := FirstRunId(v);
    var start := Loop(run, None, 0, None);
    assert Step(start, v.ticks[0]) == Loop(run, Some(Completed), 1, None);
    assert PollLoop(start, v.ticks) == Exited(Loop(run, Some(Completed), 1, None), 1);
    assert LoopRequests(start, v.ticks, t, 1) == [RetrieveRunReq(t, run)];
  }

  /** As written: a run that is in progress for nine polls and completed on
      the tenth leaves the loop completed, yet the counter-only verdict
      reports exhausted polling. */
  lemma CompletionOnTenthAttemptReportedAsExhausted(l: Loop, ticks: seq<Tick>)
    requires l.attempts == 0 && l.status != Some(Completed)
    requires |ticks| >= MaxPollingAttempts
    requires forall i :: 0 <= i < MaxPollingAttempts - 1 ==> ticks[i].poll == PollRun(InProgress)
    requires ticks[MaxPollingAttempts - 1].poll == PollRun(Completed)
    ensures var e := PollLoop(l, ticks);
      e.Exited? && e.loop.status == Some(Completed)
      && PollVerdict(e.loop) == Some(PollingExhausted) && PollVerdictIntended(e.loop).None?
  {
    PendingThenCompleted(l, ticks);
  }

  /** The same run as a whole send, as written: the run completed, yet the
      page shows "Polling exceeded maximum attempts" and never lists the
      messages. */
  lemma CompletionOnTenthAttemptFailsSend(ui: Ui, userMessage: string, sanitize: string -> string, v: Script)
    requires Validate(sanitize(userMessage)).None?
    requires ThreadReady(ui, v) && RunStarts(v)
    requires |v.ticks| >= MaxPollingAttempts
    requires forall i :: 0 <= i < MaxPollingAttempts - 1 ==> v.ticks[i].poll == PollRun(InProgress)
    requires v.ticks[MaxPollingAttempts - 1].poll == PollRun(Completed)
    ensures var o := Send(ui, userMessage, sanitize, v, AsWritten);
      o.settled && o.ui.error == Some(PollingExhausted) && !o.ui.isLoading
      && o.ui.messages == ui.messages + [UserMessage(sanitize(userMessage))]
      && forall i :: 0 <= i < |o.requests| ==> !o.requests[i].ListMessagesReq?
  {
    var shown := Shown(ui, sanitize(userMessage));
    PendingThenCompleted(Loop(FirstRunId(v), None, 0, None), v.ticks);
    RejectedLoopFailsConverse(shown, sanitize(userMessage), v, AsWritten);
  }

  /** With the intended check, the same script lists the messages: the
      send settles with the listed conversation shown. */
  lemma CompletionOnTenthAttemptListsMessages(ui: Ui, userMessage: string, sanitize: string -> string, v: Script, ms: seq<Message<string>>)
    requires Validate(sanitize(userMessage)).None?
    requires ThreadReady(ui, v) && RunStarts(v)
    requires |v.ticks| >= MaxPollingAttempts
    requires forall i :: 0 <= i < MaxPollingAttempts - 1 ==> v.ticks[i].poll == PollRun(InProgress)
    requires v.ticks[MaxPollingAttempts - 1].poll == PollRun(Completed)
    requires v.list == HttpOk(Some(ms))
    ensures var o := Send(ui, userMessage, sanitize, v, Intended);
      o.settled && o.ui.messages == ms && o.ui.error.None? && !o.ui.isLoading
      && o.requests[|o.requests| - 1] == ListMessagesReq(ThreadOf(ui, v))
  {
    var shown := Shown(ui, sanitize(userMessage));
    PendingThenCompleted(Loop(FirstRunId(v), None, 0, None), v.ticks);
    AcceptedLoopListsMessages(shown, sanitize(userMessage), v, Intended, ms);
  }

  /** A run that stays in progress for ten polls fails the send with
      exhausted polling under either check; the messages are not listed. */
  lemma NeverCompletingRunExhausts(ui: Ui, userMessage: string, sanitize: string -> string, v: Script, rule: VerdictRule)
    requires Validate(sanitize(userMessage)).None?
    requires ThreadReady(ui, v) && RunStarts(v)
    requires |v.ticks| >= MaxPollingAttempts
    requires forall i :: 0 <= i < MaxPollingAttempts ==> v.ticks[i].poll == PollRun(InProgress)
    ensures var o := Send(ui, userMessage, sanitize, v, rule);
      o.settled && o.ui.error == Some(PollingExhausted) && !o.ui.isLoading
      && o.ui.messages == ui.messages + [UserMessage(sanitize(userMessage))]
      && forall i :: 0 <= i < |o.requests| ==> !o.requests[i].ListMessagesReq?
  {
    var shown := Shown(ui, sanitize(userMessage));
    PendingPolls(Loop(FirstRunId(v), None, 0, None), v.ticks);
    RejectedLoopFailsConverse(shown, sanitize(userMessage), v, rule);
  }

  /** Once the created run's loop exits and the check after it fails, the
      send fails with exhausted polling and never lists the messages. */
  lemma RejectedLoopFailsConverse(ui: Ui, text: string, v: Script, rule: VerdictRule)
    requires ThreadReady(ui, v) && RunStarts(v)
    requires var e := PollLoop(Loop(FirstRunId(v), None, 0, ui.error), v.ticks);
      e.Exited? && Verdict(e.loop, rule).Some?
    ensures Converse(ui, text, v, rule).stage == Broke(PollingExhausted)
    ensures var rs := Converse(ui, text, v, rule).requests;
      forall i :: 0 <= i < |rs| ==> !rs[i].ListMessagesReq?
  {
    var t := EnsureThread(ui, text, v);
    var threadId := ThreadOf(ui, v);
    var r := StartRun(t.ui, threadId, v);
    assert r.ui.runId == Some(FirstRunId(v)) && r.ui.error == ui.error;
    var start := Loop(FirstRunId(v), None, 0, ui.error);
    var e := PollLoop(start, v.ticks);
    var rs := t.requests + r.requests + LoopRequests(start, v.ticks, threadId, e.polls);
    assert forall i :: 0 <= i < |rs| ==> !rs[i].ListMessagesReq?;
  }

  /** Once the created run's loop exits and the check after it passes, the
      send lists the messages last and shows them. */
  lemma AcceptedLoopListsMessages(ui: Ui, text: string, v: Script, rule: VerdictRule, ms: seq<Message<string>>)
    requires ThreadReady(ui, v) && RunStarts(v)
    requires var e := PollLoop(Loop(FirstRunId(v), None, 0, ui.error), v.ticks);
      e.Exited? && Verdict(e.loop, rule).None?
    requires v.list == HttpOk(Some(ms))
    ensures Converse(ui, text, v, rule).stage == Listed(ms)
    ensures Converse(ui, text, v, rule).ui.error == PollLoop(Loop(FirstRunId(v), None, 0, ui.error), v.ticks).loop.error
    ensures var rs := Converse(ui, text, v, rule).requests;
      |rs| >= 1 && rs[|rs| - 1] == ListMessagesReq(ThreadOf(ui, v))
  {
    var t := EnsureThread(ui, text, v);
    var r := StartRun(t.ui, ThreadOf(ui, v), v);
    assert r.ui.runId == Some(FirstRunId(v)) && r.ui.error == ui.error;
  }

  /** A run-thread answer of the reuse shape (`{run_id}`) right after the
      message is posted fails the send with "Failed to parse run data"
      before any poll, with run-thread the last request. */
  lemma ReuseAnswerFailsSend(ui: Ui, userMessage: string, sanitize: string -> string, v: Script, rule: VerdictRule)
    requires Validate(sanitize(userMessage)).None?
    requires ThreadReady(ui, v)
    requires v.firstRun.Answered? && Ok(v.firstRun.response) && v.firstRun.response.body.RunIdBody?
    ensures var o := Send(ui, userMessage, sanitize, v, rule);
      o.settled && o.ui.error == Some(RunDataInvalid) && o.ui.runId.None?
      && o.requests[|o.requests| - 1] == RunThreadReq(ThreadOf(ui, v))
      && forall i :: 0 <= i < |o.requests| ==> !o.requests[i].RetrieveRunReq?
  {
  }

  /** Any failure before the loop: the error is shown, the user's message
      stays on screen, and no poll is made. */
  lemma FailureBeforePollingMakesNoPoll(ui: Ui, userMessage: string, sanitize: string -> string, v: Script, rule: VerdictRule)
    requires Validate(sanitize(userMessage)).None?
    requires !ThreadReady(ui, v) || !RunStarts(v)
    ensures var o := Send(ui, userMessage, sanitize, v, rule);
      o.settled && o.ui.error.Some? && !o.ui.isLoading
      && o.ui.messages == ui.messages + [UserMessage(sanitize(userMessage))]
      && forall i :: 0 <= i < |o.requests| ==> !o.requests[i].RetrieveRunReq? && !o.requests[i].ListMessagesReq?
  {
  }

  // ---------------------------------------------------------------------
  // The assistant's reply on screen

  /** The assistant's messages, in order. */
  function AssistantMessages(ms: seq<Message<string>>): (r: seq<Message<string>>)
    ensures forall i :: 0 <= i < |r| ==> r[i].role == "assistant" && r[i] in ms
    // no assistant message is dropped
    ensures forall i :: 0 <= i < |ms| && ms[i].role == "assistant" ==> ms[i] in r
    ensures |r| <= |ms|
    ensures |r| == |ms| <==> forall i :: 0 <= i < |ms| ==> ms[i].role == "assistant"
    // a list of assistant messages is kept whole, in order
    ensures (forall i :: 0 <= i < |ms| ==> ms[i].role == "assistant") ==> r == ms
  {
    if |ms| == 0 then []
    else (if ms[0].role == "assistant" then [ms[0]] else []) + AssistantMessages(ms[1..])
  }

  /** The filter works piece by piece, so it keeps the order of the list:
      filtering two lists one after the other is filtering each in turn. */
  lemma {:induction false} AssistantMessagesAppend(a: seq<Message<string>>, b: seq<Message<string>>)
    ensures AssistantMessages(a + b) == AssistantMessages(a) + AssistantMessages(b)
    decreases |a|
  {
    if |a| == 0 {
      assert a + b == b;
    } else {
      assert (a + b)[1..] == a[1..] + b;
      AssistantMessagesAppend(a[1..], b);
    }
  }

  /** The message shown as the latest reply: the first assistant message of
      the list (the vendor lists newest first), if any. */
  function LatestReply(ms: seq<Message<string>>): (r: Option<nat>)
    ensures r.Some? ==> r.value < |ms| && ms[r.value].role == "assistant"
    ensures r.Some? ==> forall i :: 0 <= i < r.value ==> ms[i].role != "assistant"
    ensures r.None? ==> forall i :: 0 <= i < |ms| ==> ms[i].role != "assistant"
  {
    if |ms| == 0 then None
    else if ms[0].role == "assistant" then Some(0)
    else match LatestReply(ms[1..])
      case None => None
      case Some(k) => Some(k + 1)
  }

  /** The search and the filter agree: the reply shown is element 0 of the
      filtered list, and there is none exactly when the filter is empty. */
  lemma {:induction false} LatestReplyIsFirstOfFilter(ms: seq<Message<string>>)
    ensures LatestReply(ms).None? <==> |AssistantMessages(ms)| == 0
    ensures LatestReply(ms).Some? ==> ms[LatestReply(ms).value] == AssistantMessages(ms)[0]
  {
    if |ms| > 0 {
      LatestReplyIsFirstOfFilter(ms[1..]);
    }
  }
}

=== FILE: create_message.dfy ===
/** The create-message function: both parameters present and the question
    no longer than 1000 characters, then one user message is created. */
module CreateMessageFunction {
  import opened Util
  import opened Vendor

  const MaxQuestionLength: nat := 1000
  const MissingParams: string := "Missing threadId or question parameter"
  const TooLong: string := "Question exceeds maximum length of 1000 characters"
  const CreateFailed: string := "Failed to create message"

  /** The request body's fields; `None` for the whole request when the body
      is not valid JSON. A missing body reads as `{}`. */
  datatype Request = Request(threadId: Option<string>, question: Option<string>)

  /** Why a request is refused before the vendor is called, if it is. */
  function Refusal(req: Request): (r: Option<string>)
    ensures r == Some(MissingParams) <==> !Truthy(req.threadId) || !Truthy(req.question)
    ensures r == Some(TooLong) <==> Truthy(req.threadId) && Truthy(req.question) && |req.question.value| > MaxQuestionLength
    ensures r.None? <==> Truthy(req.threadId) && Truthy(req.question) && |req.question.value| <= MaxQuestionLength
  {
    if !Truthy(req.threadId) || !Truthy(req.question) then Some(MissingParams)
    else if |req.question.value| > MaxQuestionLength then Some(TooLong)
    else None
  }

  function Handle(req: Option<Request>, created: Attempt<Message<Json>>): (h: Handled)
    // an unparsable body throws and maps to 500, with no vendor call
    ensures req.None? ==> h == Handled(Response(500, ErrorBody(CreateFailed)), [])
    // a refusal is a 400 and comes before any vendor call
    ensures h.response.statusCode == 400 <==> req.Some? && Refusal(req.value).Some?
    ensures h.response.statusCode == 400 ==> h.calls == [] && h.response.body == ErrorBody(Refusal(req.value).value)
    // otherwise exactly one user message with the question as its content
    ensures req.Some? && Refusal(req.value).None? ==>
      h.calls == [CreateMessage(req.value.threadId.value, "user", req.value.question.value)]
    ensures h.response.statusCode == 200 <==> req.Some? && Refusal(req.value).None? && created.Returned?
    ensures h.response.statusCode == 200 ==> h.response.body == MessageBody(created.value)
    ensures req.Some? && Refusal(req.value).None? && created.Threw? ==>
      h.response == Response(500, ErrorBody(CreateFailed))
  {
    match req
    case None => Handled(Response(500, ErrorBody(CreateFailed)), [])
    case Some(r) =>
      match Refusal(r)
      case Some(why) => Handled(Response(400, ErrorBody(why)), [])
      case None =>
        var calls := [CreateMessage(r.threadId.value, "user", r.question.value)];
        match created
        case Threw => Handled(Response(500, ErrorBody(CreateFailed)), calls)
        case Returned(m) => Handled(Response(200, MessageBody(m)), calls)
  }

  /** The length limit is inclusive: 1000 characters pass, 1001 do not. */
  lemma LengthBoundary(threadId: string, q: string, created: Attempt<Message<Json>>)
    requires threadId != "" && 1000 <= |q| <= 1001
    ensures Handle(Some(Request(Some(threadId), Some(q))), created).response.statusCode == 400 <==> |q| == 1001
  {
  }
}

=== FILE: list_messages.dfy ===
/** The list-messages function: every listed message is passed on with its
    content turned into a string. JSON serialisation is a parameter. */
module ListMessagesFunction {
  import opened Util
  import opened Vendor

  const MissingParam: string := "Missing threadId parameter"
  const NoData: string := "Failed to retrieve messages"
  const ListFailed: string := "Failed to list messages"

  /** String content as it is; anything else serialised. Its partner is
      `NormaliseSettles`: text produced here is left alone by a second pass. */
  function ContentText(c: Json, stringify: Json -> string): (t: string)
    ensures c.JStr? ==> t == c.s
    ensures !c.JStr? ==> t == stringify(c)
  {
    match c
    case JStr(s) => s
    case _ => stringify(c)
  }

  /** Every message with its content made text, role, order and other fields
      kept. `NormaliseSettles` shows that normalising is idempotent. */
  function Normalise(data: seq<Message<Json>>, stringify: Json -> string): (out: seq<Message<string>>)
    ensures |out| == |data|
    ensures forall i :: 0 <= i < |data| ==>
      out[i].role == data[i].role && out[i].rest == data[i].rest
      && out[i].content == ContentText(data[i].content, stringify)
  {
    seq(|data|, i requires 0 <= i < |data| => Message(data[i].role, ContentText(data[i].content, stringify), data[i].rest))
  }

  /** String content, put back as a JSON string. */
  function Lift(msgs: seq<Message<string>>): (out: seq<Message<Json>>)
    ensures |out| == |msgs|
    ensures forall i :: 0 <= i < |msgs| ==>
      out[i] == Message(msgs[i].role, JStr(msgs[i].content), msgs[i].rest)
  {
    seq(|msgs|, i requires 0 <= i < |msgs| => Message(msgs[i].role, JStr(msgs[i].content), msgs[i].rest))
  }

  /** Normalising loses nothing but the content's structure: normalised
      messages, put back with string content, normalise to themselves, and
      messages whose content already is a string come out unchanged. */
  lemma NormaliseSettles(data: seq<Message<Json>>, stringify: Json -> string)
    ensures Normalise(Lift(Normalise(data, stringify)), stringify) == Normalise(data, stringify)
    ensures (forall i :: 0 <= i < |data| ==> data[i].content.JStr?) ==>
      Lift(Normalise(data, stringify)) == data
  {
  }

  /** `listed` is the SDK call's outcome: `Returned(None)` when the response
      or its `data` is missing. */
  function Handle(threadId: Option<string>, listed: Attempt<Option<seq<Message<Json>>>>, stringify: Json -> string): (h: Handled)
    ensures !Truthy(threadId) ==> h == Handled(Response(400, ErrorBody(MissingParam)), [])
    ensures Truthy(threadId) ==> h.calls == [ListMessages(threadId.value)]
    ensures Truthy(threadId) && listed == Returned(None) ==> h.response == Response(500, ErrorBody(NoData))
    ensures Truthy(threadId) && listed.Threw? ==> h.response == Response(500, ErrorBody(ListFailed))
    ensures h.response.statusCode == 200 <==> Truthy(threadId) && listed.Returned? && listed.value.Some?
    ensures h.response.statusCode == 200 ==>
      h.response.body.MessagesBody? && |h.response.body.messages| == |listed.value.value|
      && forall i :: 0 <= i < |listed.value.value| ==>
        var (m, d) := (h.response.body.messages[i], listed.value.value[i]);
        m.role == d.role && m.rest == d.rest
        && (d.content.JStr? ==> m.content == d.content.s)
        && (!d.content.JStr? ==> m.content == stringify(d.content))
  {
    if !Truthy(threadId) then Handled(Response(400, ErrorBody(MissingParam)), [])
    else
      var calls := [ListMessages(threadId.value)];
      match listed
      case Threw => Handled(Response(500, ErrorBody(ListFailed)), calls)
      case Returned(None) => Handled(Response(500, ErrorBody(NoData)), calls)
      case Returned(Some(data)) => Handled(Response(200, MessagesBody(Normalise(data, stringify))), calls)
  }
}

=== FILE: reminders.dfy ===
/** The workout-reminder logic of the notifications component: the 24-hour
    check, scheduling of the next reminder, recording a completed workout,
    the decisions taken on mount and when permission changes, and the
    once-only welcome notification. The browser's localStorage is a map from
    keys to integers (every value stored here is a number or a flag), the
    clock is an integer number of milliseconds, and pending timeouts are a map
    from timeout id to the time they fire. */
module Reminders {
  import opened Util

  const HourMs: int := 1000 * 60 * 60
  const DayMs: int := 24 * 60 * 60 * 1000

  const LastWorkoutKey: string := "last-workout-timestamp"
  const NextReminderKey: string := "next-reminder-timestamp"
  const TimeoutIdKey: string := "reminder-timeout-id"
  const WelcomedKey: string := "notification-welcomed"

  type Store = map<string, int>

  datatype Permission = Default | Granted | Denied

  datatype Browser = Browser(store: Store, timers: map<int, int>)

  /** `check24HoursPassed`: the source divides the elapsed milliseconds by
      the length of an hour and compares with 24. */
  function Check24HoursPassed(store: Store, now: int): (passed: bool)
    ensures LastWorkoutKey !in store ==> !passed
    ensures LastWorkoutKey in store ==> (passed <==> now - store[LastWorkoutKey] >= 86_400_000)
  {
    if LastWorkoutKey !in store then false
    else
      var hoursSince := (now - store[LastWorkoutKey]) as real / (HourMs as real);
      hoursSince >= 24.0
  }

  /** At most one reminder timeout is pending, and it is the one whose id is
      stored. */
  ghost predicate OneReminder(b: Browser) {
    forall id :: id in b.timers ==> TimeoutIdKey in b.store && id == b.store[TimeoutIdKey]
  }

  /** `scheduleNextReminder`, with `freshId` the id the browser hands out for
      the new timeout. The stored previous timeout is cleared first, even when
      no new reminder is scheduled. */
  function ScheduleNextReminder(b: Browser, now: int, freshId: int): (b': Browser)
    ensures TimeoutIdKey in b.store && b.store[TimeoutIdKey] != freshId ==> b.store[TimeoutIdKey] !in b'.timers
    ensures LastWorkoutKey !in b.store ==>
      b'.store == b.store && b'.timers.Keys == b.timers.Keys - (if TimeoutIdKey in b.store then {b.store[TimeoutIdKey]} else {})
    ensures LastWorkoutKey in b.store ==>
      var target := b.store[LastWorkoutKey] + DayMs;
      && b'.store == b.store[NextReminderKey := target][TimeoutIdKey := freshId]
      && freshId in b'.timers && b'.timers[freshId] == Max(now, target)
      && b'.timers[freshId] - now >= 0
    ensures OneReminder(b) ==> OneReminder(b')
    ensures OneReminder(b) && LastWorkoutKey in b.store ==> b'.timers.Keys == {freshId}
  {
    var timers := ClearStoredTimeout(b);
    if LastWorkoutKey in b.store then
      var target := b.store[LastWorkoutKey] + DayMs;
      var delay := Max(0, target - now);
      Browser(b.store[NextReminderKey := target][TimeoutIdKey := freshId], timers[freshId := now + delay])
    else
      Browser(b.store, timers)
  }

  /** The pending timeouts once the stored one is cleared. */
  function ClearStoredTimeout(b: Browser): (timers: map<int, int>)
    ensures timers.Keys == b.timers.Keys - (if TimeoutIdKey in b.store then {b.store[TimeoutIdKey]} else {})
    ensures forall id :: id in timers ==> timers[id] == b.timers[id]
    ensures TimeoutIdKey in b.store ==> b.store[TimeoutIdKey] !in timers
    ensures OneReminder(b) ==> timers.Keys == {}
  {
    var timers := if TimeoutIdKey in b.store then b.timers - {b.store[TimeoutIdKey]} else b.timers;
    forall x | x in b.timers.Keys && OneReminder(b)
      ensures TimeoutIdKey in b.store && x == b.store[TimeoutIdKey]
    {
    }
    timers
  }

  lemma OneReminderIsAtMostOne(b: Browser)
    requires OneReminder(b)
    ensures |b.timers| <= 1
  {
    var ks := b.timers.Keys;
    forall x | x in ks
      ensures TimeoutIdKey in b.store && x == b.store[TimeoutIdKey]
    {
    }
    if TimeoutIdKey in b.store && b.store[TimeoutIdKey] in ks {
      assert ks == {b.store[TimeoutIdKey]};
    } else {
      assert ks == {};
    }
    assert |b.timers| == |ks|;
  }

  /** `recordWorkoutCompletion`: stamp the workout with the current time and
      reschedule, so the next reminder is due a day from now. */
  function RecordWorkoutCompletion(b: Browser, now: int, freshId: int): (b': Browser)
    ensures LastWorkoutKey in b'.store && b'.store[LastWorkoutKey] == now
    ensures NextReminderKey in b'.store && b'.store[NextReminderKey] == now + 86_400_000
    ensures freshId in b'.timers && b'.timers[freshId] == now + 86_400_000
    ensures OneReminder(b) ==> b'.timers == map[freshId := now + 86_400_000]
  {
    var stamped := Browser(b.store[LastWorkoutKey := now], b.timers);
    var b' := ScheduleNextReminder(stamped, now, freshId);
    assert OneReminder(b) ==> b'.timers.Keys == {freshId};
    b'
  }

  /** Whether the reminder notification appears when asked for: it checks
      the browser's current permission. */
  predicate ShowReminder(permission: Option<Permission>) {
    permission == Some(Granted)
  }

  datatype Fired = Fired(browser: Browser, shown: bool)

  /** The timeout callback: the pending timeout is gone and the reminder is
      shown only if the 24-hour check still holds at that moment. */
  function FireReminder(b: Browser, id: int, now: int, permission: Option<Permission>): (f: Fired)
    requires id in b.timers
    ensures f.browser.store == b.store && f.browser.timers == b.timers - {id}
    ensures f.shown <==>
      permission == Some(Granted) && LastWorkoutKey in b.store && now - b.store[LastWorkoutKey] >= 86_400_000
  {
    Fired(Browser(b.store, b.timers - {id}), Check24HoursPassed(b.store, now) && ShowReminder(permission))
  }

  /** A reminder scheduled from a stored workout time, firing at the time it
      was scheduled for, is shown exactly when permission is granted: by then
      24 hours have passed. */
  lemma {:induction false} ScheduledReminderIsDue(b: Browser, now: int, freshId: int, permission: Option<Permission>)
    requires LastWorkoutKey in b.store
    ensures var s := ScheduleNextReminder(b, now, freshId);
      freshId in s.timers && FireReminder(s, freshId, s.timers[freshId], permission).shown == (permission == Some(Granted))
  {
    var s := ScheduleNextReminder(b, now, freshId);
    assert s.timers[freshId] >= b.store[LastWorkoutKey] + DayMs;
  }

  /** After a completed workout, a firing earlier than a day later shows
      nothing, and the scheduled firing shows the reminder when permitted. */
  lemma {:induction false} CompletionThenReminder(b: Browser, now: int, freshId: int, later: int, permission: Option<Permission>)
    ensures var r := RecordWorkoutCompletion(b, now, freshId);
      && (later < now + DayMs ==> !FireReminder(r, freshId, later, permission).shown)
      && FireReminder(r, freshId, now + DayMs, permission).shown == (permission == Some(Granted))
  {
    var r := RecordWorkoutCompletion(b, now, freshId);
    assert r.store[LastWorkoutKey] == now;
  }

  /** The browser once the welcome flag is stored (kept if already there). */
  function Flagged(b: Browser): (b': Browser)
    ensures b'.timers == b.timers && WelcomedKey in b'.store
    ensures forall k :: k in b.store ==> k in b'.store && b'.store[k] == b.store[k]
    ensures b'.store.Keys == b.store.Keys + {WelcomedKey}
  {
    if WelcomedKey in b.store then b else Browser(b.store[WelcomedKey := 1], b.timers)
  }

  datatype Mounted = Mounted(browser: Browser, welcome: bool, reminder: bool)

  /** `showWelcomeNotification` checks the permission status held by the
      render it was created in, not the browser's. */
  predicate ShowWelcome(rendered: Option<Permission>) {
    rendered == Some(Granted)
  }

  /** The mount effect. `permission` is `None` when the browser has no
      Notification API; `rendered` is the permission state seen by the
      render that runs the effect (on the first render, still its initial
      `None`). Only with permission granted does anything happen: the
      welcome flag is set if absent, a due reminder is shown, and the next
      reminder is scheduled. */
  function Mount(b: Browser, permission: Option<Permission>, rendered: Option<Permission>, now: int, freshId: int): (m: Mounted)
    ensures permission != Some(Granted) ==> m == Mounted(b, false, false)
    ensures m.reminder <==> permission == Some(Granted) && Check24HoursPassed(b.store, now)
    ensures m.welcome <==> permission == Some(Granted) && WelcomedKey !in b.store && rendered == Some(Granted)
    ensures permission == Some(Granted) ==> WelcomedKey in m.browser.store
    ensures WelcomedKey in b.store ==> WelcomedKey in m.browser.store && m.browser.store[WelcomedKey] == b.store[WelcomedKey]
    // in all granted cases the next reminder is scheduled, after the flag
    ensures permission == Some(Granted) ==>
      m.browser == ScheduleNextReminder(Flagged(b), now, freshId)
    ensures OneReminder(b) ==> OneReminder(m.browser)
  {
    if permission == Some(Granted) then
      var welcome := WelcomedKey !in b.store && ShowWelcome(rendered);
      var flagged := Flagged(b);
      // a past reminder time and the fallback both end in the same check
      var reminder :=
        if NextReminderKey in flagged.store && flagged.store[NextReminderKey] <= now then
          Check24HoursPassed(flagged.store, now) && ShowReminder(permission)
        else
          Check24HoursPassed(flagged.store, now) && ShowReminder(permission);
      Mounted(ScheduleNextReminder(flagged, now, freshId), welcome, reminder)
    else
      Mounted(b, false, false)
  }

  /** The effect that runs when the permission state changes: the first time
      it is "granted", welcome, set the flag and schedule. */
  function PermissionChanged(b: Browser, status: Option<Permission>, now: int, freshId: int): (m: Mounted)
    ensures !m.reminder
    ensures m.welcome <==> status == Some(Granted) && WelcomedKey !in b.store
    ensures m.welcome ==> WelcomedKey in m.browser.store
    ensures !m.welcome ==> m.browser == b
    ensures WelcomedKey in b.store ==> WelcomedKey in m.browser.store && m.browser.store[WelcomedKey] == b.store[WelcomedKey]
    // the first granted status also schedules the next reminder
    ensures m.welcome ==> m.browser == ScheduleNextReminder(Flagged(b), now, freshId)
    ensures OneReminder(b) ==> OneReminder(m.browser)
  {
    if status == Some(Granted) && WelcomedKey !in b.store then
      var welcome := ShowWelcome(status);
      Mounted(ScheduleNextReminder(Flagged(b), now, freshId), welcome, false)
    else
      Mounted(b, false, false)
  }

  /** Everything that can happen to the component over time. */
  datatype Event =
    | MountEvent(permission: Option<Permission>, rendered: Option<Permission>, now: int, freshId: int)
    | PermissionEvent(status: Option<Permission>, now: int, freshId: int)
    | CompletedEvent(now: int, freshId: int)
    | TimerEvent(id: int, now: int, permission: Option<Permission>)

  /** Applies the events in order; returns the browser and the number of
      welcome notifications shown. A timer event for an id that is not
      pending does nothing. */
  function Replay(b: Browser, events: seq<Event>): (r: (Browser, nat))
    ensures |events| == 0 ==> r == (b, 0)
    // each event shows the welcome at most once
    ensures r.1 <= |events|
    decreases |events|
  {
    if |events| == 0 then (b, 0)
    else
      var (b1, w) := match events[0]
        case MountEvent(p, r, now, id) =>
          var m := Mount(b, p, r, now, id);
          (m.browser, if m.welcome then 1 else 0)
        case PermissionEvent(st, now, id) =>
          var m := PermissionChanged(b, st, now, id);
          (m.browser, if m.welcome then 1 else 0)
        case CompletedEvent(now, id) => (RecordWorkoutCompletion(b, now, id), 0)
        case TimerEvent(id, now, p) =>
          if id in b.timers then (FireReminder(b, id, now, p).browser, 0) else (b, 0);
      var (b2, ws) := Replay(b1, events[1..]);
      (b2, w + ws)
  }

  /** Whatever happens, the welcome notification is shown at most once, and
      never again once the flag is stored. */
  lemma {:induction false} WelcomeAtMostOnce(b: Browser, events: seq<Event>)
    ensures Replay(b, events).1 <= (if WelcomedKey in b.store then 0 else 1)
    ensures WelcomedKey in b.store ==> WelcomedKey in Replay(b, events).0.store
    decreases |events|
  {
    if |events| > 0 {
      var b1 := match events[0]
        case MountEvent(p, r, now, id) => Mount(b, p, r, now, id).browser
        case PermissionEvent(st, now, id) => PermissionChanged(b, st, now, id).browser
        case CompletedEvent(now, id) => RecordWorkoutCompletion(b, now, id)
        case TimerEvent(id, now, p) => if id in b.timers then FireReminder(b, id, now, p).browser else b;
      assert Replay(b, events).0 == Replay(b1, events[1..]).0;
      WelcomeAtMostOnce(b1, events[1..]);
    }
  }

  /** As written, the first mount with permission already granted stores the
      welcome flag without showing the welcome (the render's permission state
      is still unset), so the welcome is never shown afterwards either. */
  lemma WelcomeLostOnFirstMount(b: Browser, now: int, freshId: int, later: seq<Event>)
    requires WelcomedKey !in b.store
    ensures var m := Mount(b, Some(Granted), None, now, freshId);
      !m.welcome && Replay(m.browser, later).1 == 0
  {
    var m := Mount(b, Some(Granted), None, now, freshId);
    WelcomeAtMostOnce(m.browser, later);
  }

  /** The mount effect with the welcome checking the browser's permission
      (the value the effect has just read) rather than the render's. */
  function MountIntended(b: Browser, permission: Option<Permission>, now: int, freshId: int): (m: Mounted)
    ensures m.welcome <==> permission == Some(Granted) && WelcomedKey !in b.store
    ensures m.reminder <==> permission == Some(Granted) && Check24HoursPassed(b.store, now)
    ensures permission != Some(Granted) ==> m == Mounted(b, false, false)
  {
    Mount(b, permission, permission, now, freshId)
  }

  /** With the intended mount, the first mount with permission granted does
      show the welcome, and only once: nothing later shows it again. */
  lemma WelcomeShownOnFirstMountIntended(b: Browser, now: int, freshId: int, later: seq<Event>)
    requires WelcomedKey !in b.store
    ensures var m := MountIntended(b, Some(Granted), now, freshId);
      m.welcome && Replay(m.browser, later).1 == 0
  {
    var m := MountIntended(b, Some(Granted), now, freshId);
    WelcomeAtMostOnce(m.browser, later);
  }
}

=== FILE: run_thread.dfy ===
/** The run-thread function: reuse an active run of the thread or create a
    new one. The two success answers have different shapes: `{run_id}` for
    a reused run, the full run object (with `id`) for a created one. */
module RunThreadFunction {
  import opened Util
  import opened Vendor

  const MissingParams: string := "Missing threadId or asstID parameter"
  const RunFailed: string := "Failed to run thread"

  /** The filter of the active-run search: everything except completed,
      failed and cancelled, so an expired run counts as active. */
  predicate IsActive(s: RunStatus) {
    s != Completed && s != Failed && s != Cancelled
  }

  /** Index of the first active run in list order (`Array.prototype.find`). */
  function FirstActive(runs: seq<Run>): (r: Option<nat>)
    ensures r.Some? ==> r.value < |runs| && IsActive(runs[r.value].status)
    ensures r.Some? ==> forall i :: 0 <= i < r.value ==> !IsActive(runs[i].status)
    ensures r.None? ==> forall i :: 0 <= i < |runs| ==> !IsActive(runs[i].status)
  {
    if |runs| == 0 then None
    else if IsActive(runs[0].status) then Some(0)
    else match FirstActive(runs[1..])
      case None => None
      case Some(k) => Some(k + 1)
  }

  /** The handler, given the query parameters and the results of the two
      vendor calls it may make (listing the thread's runs, creating a run). */
  function Handle(threadId: Option<string>, asstId: Option<string>, listed: Attempt<seq<Run>>, created: Attempt<Run>): (h: Handled)
    // missing parameters: 400 and no vendor call
    ensures !Truthy(threadId) || !Truthy(asstId) ==>
      h == Handled(Response(400, ErrorBody(MissingParams)), [])
    // otherwise the runs are listed first
    ensures Truthy(threadId) && Truthy(asstId) ==> |h.calls| >= 1 && h.calls[0] == ListRuns(threadId.value)
    // an active run is reused: 200 with its id as `run_id`, nothing created
    ensures Truthy(threadId) && Truthy(asstId) && listed.Returned? && FirstActive(listed.value).Some? ==>
      h.response == Response(200, RunIdBody(listed.value[FirstActive(listed.value).value].id))
      && h.calls == [ListRuns(threadId.value)]
    // no active run: exactly one run is created and returned whole
    ensures Truthy(threadId) && Truthy(asstId) && listed.Returned? && FirstActive(listed.value).None? ==>
      h.calls == [ListRuns(threadId.value), CreateRun(threadId.value, asstId.value)]
      && (created.Returned? ==> h.response == Response(200, RunBody(created.value)))
    // any thrown error: 500
    ensures Truthy(threadId) && Truthy(asstId) && (listed.Threw? || (FirstActive(listed.value).None? && created.Threw?)) ==>
      h.response == Response(500, ErrorBody(RunFailed))
    // every 200 answer carries a run handle in one of the two shapes
    ensures h.response.statusCode == 200 <==> h.response.body.RunIdBody? || h.response.body.RunBody?
  {
    if !Truthy(threadId) || !Truthy(asstId) then
      Handled(Response(400, ErrorBody(MissingParams)), [])
    else
      var list := [ListRuns(threadId.value)];
      match listed
      case Threw => Handled(Response(500, ErrorBody(RunFailed)), list)
      case Returned(runs) =>
        match FirstActive(runs)
        case Some(i) => Handled(Response(200, RunIdBody(runs[i].id)), list)
        case None =>
          var calls := list + [CreateRun(threadId.value, asstId.value)];
          match created
          case Threw => Handled(Response(500, ErrorBody(RunFailed)), calls)
          case Returned(run) => Handled(Response(200, RunBody(run)), calls)
  }

  function CountCreates(calls: seq<Call>): nat {
    if |calls| == 0 then 0 else (if calls[0].CreateRun? then 1 else 0) + CountCreates(calls[1..])
  }

  /** A run is created exactly when the parameters are present, the runs
      could be listed and none of them is active; never more than one. */
  lemma CreatesAtMostOneRun(threadId: Option<string>, asstId: Option<string>, listed: Attempt<seq<Run>>, created: Attempt<Run>)
    ensures var h := Handle(threadId, asstId, listed, created);
      CountCreates(h.calls) <= 1
      && (CountCreates(h.calls) == 1 <==>
            Truthy(threadId) && Truthy(asstId) && listed.Returned? && FirstActive(listed.value).None?)
  {
    var h := Handle(threadId, asstId, listed, created);
    if Truthy(threadId) && Truthy(asstId) && listed.Returned? && FirstActive(listed.value).None? {
      assert h.calls[1..] == [CreateRun(threadId.value, asstId.value)];
      assert h.calls[1..][1..] == [];
      assert CountCreates(h.calls[1..]) == 1;
    } else if Truthy(threadId) && Truthy(asstId) {
      assert h.calls[1..] == [];
    }
  }

  /** An expired run is handed back for reuse: with an expired run first in
      the list, the answer is `{run_id}` naming that very run. */
  lemma ExpiredRunIsReused(threadId: string, asstId: string, expired: Run, others: seq<Run>, created: Attempt<Run>)
    requires threadId != "" && asstId != ""
    requires expired.status == Expired
    ensures Handle(Some(threadId), Some(asstId), Returned([expired] + others), created).response
      == Response(200, RunIdBody(expired.id))
  {
    assert FirstActive([expired] + others) == Some(0);
  }

  // ---------------------------------------------------------------------
  // The search the reuse evidently intends

  /** A run that can still produce an answer: active and not expired. */
  predicate IsLive(s: RunStatus) {
    IsActive(s) && s != Expired
  }

  /** The runs the intended search considers, in list order. */
  function LiveCandidates(runs: seq<Run>): (r: seq<Run>)
    ensures forall i :: 0 <= i < |r| ==> r[i] in runs && r[i].status != Expired
    ensures forall i :: 0 <= i < |runs| && runs[i].status != Expired ==> runs[i] in r
  {
    if |runs| == 0 then []
    else (if runs[0].status == Expired then [] else [runs[0]]) + LiveCandidates(runs[1..])
  }

  /** The handler with expired runs left out of the reuse search: the
      written handler applied to the list without its expired runs. */
  function HandleIntended(threadId: Option<string>, asstId: Option<string>, listed: Attempt<seq<Run>>, created: Attempt<Run>): (h: Handled)
    // a reused run is one of the listed runs, and it is live
    ensures h.response.body.RunIdBody? ==>
      listed.Returned? && exists r :: r in listed.value && r.id == h.response.body.run_id && IsLive(r.status)
    // with no live run, a run is created instead
    ensures Truthy(threadId) && Truthy(asstId) && listed.Returned? && (forall r :: r in listed.value ==> !IsLive(r.status)) ==>
      h.calls == [ListRuns(threadId.value), CreateRun(threadId.value, asstId.value)]
  {
    var filtered := match listed
      case Threw => Threw
      case Returned(runs) => Returned(LiveCandidates(runs));
    Handle(threadId, asstId, filtered, created)
  }

  /** With only an expired run in the list, the intended handler creates a
      new run where the written one hands back the expired one. */
  lemma ExpiredRunIsReplacedIntended(threadId: string, asstId: string, expired: Run, run: Run)
    requires threadId != "" && asstId != ""
    requires expired.status == Expired
    ensures HandleIntended(Some(threadId), Some(asstId), Returned([expired]), Returned(run)).response
      == Response(200, RunBody(run))
  {
    assert LiveCandidates([expired]) == [] by {
      assert [expired][1..] == [];
    }
  }

  /** The run created on an earlier call comes back first in the list
      (newest first); the intended handler hands it back as `{run_id}`,
      whatever older runs follow it and without creating another. */
  lemma CreatedRunIsReusedIntended(threadId: string, asstId: string, created: Run, older: seq<Run>, again: Attempt<Run>)
    requires threadId != "" && asstId != ""
    requires IsLive(created.status)
    ensures var h := HandleIntended(Some(threadId), Some(asstId), Returned([created] + older), again);
      h.response == Response(200, RunIdBody(created.id)) && h.calls == [ListRuns(threadId)]
  {
    assert LiveCandidates([created] + older) == [created] + LiveCandidates(older) by {
      assert ([created] + older)[1..] == older;
    }
    assert FirstActive([created] + LiveCandidates(older)) == Some(0);
  }
}

=== FILE: util.dfy ===
/** Small shared vocabulary: optional values, JavaScript truthiness of
    optional strings, and decimal digits. */
module Util {

  datatype Option<+T> = None | Some(value: T)

  /** A string-valued JavaScript field is truthy when it is present and not
      the empty string; `None` stands for `undefined`/`null`. */
  predicate Truthy(o: Option<string>) {
    o.Some? && o.value != ""
  }

  /** The expression `o || fallback` on an optional string. */
  function OrElse(o: Option<string>, fallback: string): (r: string)
    ensures Truthy(o) ==> r == o.value
    ensures !Truthy(o) ==> r == fallback
  {
    if Truthy(o) then o.value else fallback
  }

  function Max(a: int, b: int): (m: int)
    ensures m >= a && m >= b
    ensures m == a || m == b
  {
    if a >= b then a else b
  }

  predicate IsDigit(c: char) {
    '0' <= c <= '9'
  }

  predicate AllDigits(s: string) {
    forall i :: 0 <= i < |s| ==> IsDigit(s[i])
  }

  function DigitChar(d: nat): (c: char)
    requires d < 10
    ensures IsDigit(c)
    ensures c == '0' <==> d == 0
  {
    "0123456789"[d]
  }

  function DigitValue(c: char): (d: nat)
    requires IsDigit(c)
    ensures d < 10
  {
    (c as int - '0' as int) as nat
  }

  lemma DigitRoundTrip(d: nat)
    requires d < 10
    ensures DigitValue(DigitChar(d)) == d
  {
  }

  /** Decimal representation of a natural number without leading zeros,
      as JavaScript's `Number.prototype.toString()` writes it. */
  function ShowNat(n: nat): (s: string)
    ensures 1 <= |s|
    ensures AllDigits(s)
    ensures |s| == 1 <==> n < 10
    ensures n < 100 ==> |s| <= 2
    ensures n >= 100 ==> |s| >= 3
    ensures n > 0 ==> s[0] != '0'
    decreases n
  {
    if n < 10 then [DigitChar(n)] else ShowNat(n / 10) + [DigitChar(n % 10)]
  }

  /** Value of a string of decimal digits (leading zeros allowed). */
  function ReadNat(s: string): nat
    requires AllDigits(s)
  {
    if |s| == 0 then 0 else 10 * ReadNat(s[..|s| - 1]) + DigitValue(s[|s| - 1])
  }

  /** Reading back a rendered number gives the number. */
  lemma {:induction false} ReadShowNat(n: nat)
    ensures ReadNat(ShowNat(n)) == n
    decreases n
  {
    if n < 10 {
      DigitRoundTrip(n);
    } else {
      var s := ShowNat(n / 10) + [DigitChar(n % 10)];
      assert s[..|s| - 1] == ShowNat(n / 10);
      ReadShowNat(n / 10);
      DigitRoundTrip(n % 10);
    }
  }

  /** A leading zero does not change the value of a digit string. */
  lemma {:induction false} ReadNatLeadingZero(s: string)
    requires AllDigits(s)
    ensures ReadNat("0" + s) == ReadNat(s)
    decreases |s|
  {
    if |s| > 0 {
      var t := "0" + s;
      assert t[..|t| - 1] == "0" + s[..|s| - 1];
      ReadNatLeadingZero(s[..|s| - 1]);
    }
  }

  /** First index of `c` in `s`, if any. */
  function IndexOf(s: string, c: char): (r: Option<nat>)
    ensures r.Some? ==> r.value < |s| && s[r.value] == c
    ensures r.Some? ==> forall i :: 0 <= i < r.value ==> s[i] != c
    ensures r.None? ==> forall i :: 0 <= i < |s| ==> s[i] != c
  {
    if |s| == 0 then None
    else if s[0] == c then Some(0)
    else match IndexOf(s[1..], c)
      case None => None
      case Some(k) => Some(k + 1)
  }
}

=== FILE: vendor.dfy ===
/** What the serverless functions and the chat page exchange: JSON values,
    the assistant vendor's runs and messages, HTTP responses of the
    functions, and the outcome of one vendor SDK call. */
module Vendor {
  import opened Util

  datatype Json =
    | JNull
    | JBool(b: bool)
    | JNum(n: int)
    | JStr(s: string)
    | JArr(items: seq<Json>)
    | JObj(fields: map<string, Json>)

  /** Run statuses the vendor reports. */
  datatype RunStatus =
    | Queued | InProgress | RequiresAction | Cancelling | Cancelled
    | Failed | Completed | Incomplete | Expired

  /** A run as the vendor returns it; it has an `id` field, not `run_id`. */
  datatype Run = Run(id: string, status: RunStatus)

  /** A message: its role, its content (a string or a structured payload)
      and every other field, kept as they come. */
  datatype Message<C> = Message(role: string, content: C, rest: map<string, Json>)

  /** The JSON bodies the functions send back. */
  datatype Body =
    | ErrorBody(error: string)
    | RunIdBody(run_id: string)
    | RunBody(run: Run)
    | MessageBody(message: Message<Json>)
    | MessagesBody(messages: seq<Message<string>>)

  datatype Response = Response(statusCode: int, body: Body)

  predicate Ok(r: Response) {
    200 <= r.statusCode <= 299
  }

  /** One awaited SDK call: it either returns a value or throws. */
  datatype Attempt<+T> = Returned(value: T) | Threw

  /** The vendor calls a function makes, in order. */
  datatype Call =
    | ListRuns(threadId: string)
    | CreateRun(threadId: string, assistantId: string)
    | CreateMessage(threadId: string, role: string, content: string)
    | ListMessages(threadId: string)

  /** A function's answer and the vendor calls it made on the way. */
  datatype Handled = Handled(response: Response, calls: seq<Call>)
}

=== FILE: video.dfy ===
/** The video player's `getYouTubeVideoId`: the pattern
    `^.*(youtu.be/|v/|u/\w/|embed/|watch?v=|&v=)([^#&?]*).*` applied with
    JavaScript's backtracking semantics, written out as an explicit search. */
module VideoPlayer {
  import opened Util

  /** Characters `.` does not match (no `s` flag on the pattern). */
  predicate IsLineTerminator(c: char) {
    c == '\n' || c == '\r' || c == '\U{2028}' || c == '\U{2029}'
  }

  /** Characters matched by `\w`. */
  predicate IsWordChar(c: char) {
    ('a' <= c <= 'z') || ('A' <= c <= 'Z') || ('0' <= c <= '9') || c == '_'
  }

  /** Characters that end the captured id. */
  predicate IsStop(c: char) {
    c == '#' || c == '&' || c == '?'
  }

  predicate HasAt(url: string, p: nat, lit: string) {
    p + |lit| <= |url| && url[p..p + |lit|] == lit
  }

  /** Length of the marker alternative that matches at position `p`, or 0.
      The six alternatives start with six different characters, so at most
      one of them can match at any position. */
  function MarkerAt(url: string, p: nat): (n: nat)
    ensures n > 0 ==> p + n <= |url|
    ensures n in {0, 2, 3, 4, 6, 8, 9}
    ensures n > 0 ==> url[p] in "yvuew&"
    // one case per alternative of group 1
    ensures n == 9 <==>
      HasAt(url, p, "youtu") && p + 9 <= |url| && !IsLineTerminator(url[p + 5]) && HasAt(url, p + 6, "be/")
    ensures n == 2 <==> HasAt(url, p, "v/")
    ensures n == 4 <==>
      p + 4 <= |url| && url[p] == 'u' && url[p + 1] == '/' && IsWordChar(url[p + 2]) && url[p + 3] == '/'
    ensures n == 6 <==> HasAt(url, p, "embed/")
    ensures n == 8 <==> HasAt(url, p, "watch?v=")
    ensures n == 3 <==> HasAt(url, p, "&v=")
  {
    if p >= |url| then 0
    else match url[p]
      case 'y' =>
        if HasAt(url, p, "youtu") && p + 9 <= |url| && !IsLineTerminator(url[p + 5]) && HasAt(url, p + 6, "be/")
        then 9 else 0
      case 'v' => if HasAt(url, p, "v/") then 2 else 0
      case 'u' =>
        if p + 4 <= |url| && url[p + 1] == '/' && IsWordChar(url[p + 2]) && url[p + 3] == '/'
        then 4 else 0
      case 'e' => if HasAt(url, p, "embed/") then 6 else 0
      case 'w' => if HasAt(url, p, "watch?v=") then 8 else 0
      case '&' => if HasAt(url, p, "&v=") then 3 else 0
      case _ => 0
  }

  /** How far the leading `.*` can reach: up to the first line terminator. */
  function LineEnd(url: string): (e: nat)
    ensures e <= |url|
    ensures forall i :: 0 <= i < e ==> !IsLineTerminator(url[i])
    ensures e < |url| ==> IsLineTerminator(url[e])
  {
    if |url| == 0 || IsLineTerminator(url[0]) then 0 else 1 + LineEnd(url[1..])
  }

  /** A position where the pattern's group 1 can begin. */
  predicate IsMarkerStart(url: string, p: nat) {
    p <= LineEnd(url) && MarkerAt(url, p) > 0
  }

  /** The greedy leading `.*` backtracks from the far end, so the match
      uses the last marker start at or below `p`. */
  function LastMarkerAtOrBelow(url: string, p: int): (r: Option<nat>)
    requires p <= |url|
    ensures r.Some? ==> r.value <= p && MarkerAt(url, r.value) > 0
    ensures r.Some? ==> forall q :: r.value < q <= p ==> MarkerAt(url, q) == 0
    ensures r.None? ==> forall q :: 0 <= q <= p ==> MarkerAt(url, q) == 0
    decreases p + 1
  {
    if p < 0 then None
    else if MarkerAt(url, p) > 0 then Some(p)
    else LastMarkerAtOrBelow(url, p - 1)
  }

  /** Group 2: the longest run of characters other than '#', '&', '?'
      starting at `i`. */
  function Run(url: string, i: nat): (r: string)
    requires i <= |url|
    ensures i + |r| <= |url| && r == url[i..i + |r|]
    ensures forall k :: 0 <= k < |r| ==> !IsStop(r[k])
    ensures i + |r| == |url| || IsStop(url[i + |r|])
    decreases |url| - i
  {
    if i == |url| || IsStop(url[i]) then "" else [url[i]] + Run(url, i + 1)
  }

  /** The id captured after the marker starting at `p`, kept only when it
      is exactly eleven characters long. */
  function CaptureAt(url: string, p: nat): (r: string)
    requires p <= |url| && MarkerAt(url, p) > 0
    ensures |r| == 0 || |r| == 11
    ensures forall k :: 0 <= k < |r| ==> !IsStop(r[k])
    // group 2 is kept exactly when it is eleven characters long
    ensures |Run(url, p + MarkerAt(url, p))| == 11 ==> r == Run(url, p + MarkerAt(url, p))
    ensures |Run(url, p + MarkerAt(url, p))| != 11 ==> r == ""
  {
    var id := Run(url, p + MarkerAt(url, p));
    if |id| == 11 then id else ""
  }

  function GetYouTubeVideoId(url: string): (r: string)
    ensures |r| == 0 || |r| == 11
    ensures forall k :: 0 <= k < |r| ==> !IsStop(r[k])
    ensures (forall p :: 0 <= p <= |url| ==> !IsMarkerStart(url, p)) ==> r == ""
  {
    match LastMarkerAtOrBelow(url, LineEnd(url))
    case None => ""
    case Some(p) =>
      assert IsMarkerStart(url, p);
      CaptureAt(url, p)
  }

  /** The result is determined by the LAST marker start alone: whatever an
      earlier marker would have captured is ignored. */
  lemma LastMarkerDecides(url: string, p: nat)
    requires IsMarkerStart(url, p)
    requires forall q :: p < q <= |url| ==> !IsMarkerStart(url, q)
    ensures GetYouTubeVideoId(url) == CaptureAt(url, p)
  {
    var found := LastMarkerAtOrBelow(url, LineEnd(url));
    assert found.Some?;
    assert IsMarkerStart(url, found.value);
    assert found.value == p;
  }

  /** A non-empty result is eleven characters that follow a marker start
      with no later marker start before the first line terminator. */
  lemma NonEmptyComesFromLastMarker(url: string)
    requires GetYouTubeVideoId(url) != ""
    ensures exists p ::
      && 0 <= p <= |url| && IsMarkerStart(url, p)
      && (forall q :: p < q <= |url| ==> !IsMarkerStart(url, q))
      && GetYouTubeVideoId(url) == Run(url, p + MarkerAt(url, p))
  {
    var found := LastMarkerAtOrBelow(url, LineEnd(url));
    var p := found.value;
    assert IsMarkerStart(url, p);
  }

  /** Without line terminators the leading `.*` can reach the end. */
  lemma LineEndOfSingleLine(url: string)
    requires forall i :: 0 <= i < |url| ==> !IsLineTerminator(url[i])
    ensures LineEnd(url) == |url|
  {
  }

  /** The captured run reaches the end of the URL when no stop character
      follows. */
  lemma RunToEnd(url: string, i: nat)
    requires i <= |url|
    requires forall k :: i <= k < |url| ==> !IsStop(url[k])
    ensures Run(url, i) == url[i..]
  {
  }

  /** The id after the last marker start, when the rest of the URL is free of
      stop characters and exactly eleven characters long. */
  lemma IdAtEnd(url: string, p: nat)
    requires forall i :: 0 <= i < |url| ==> !IsLineTerminator(url[i])
    requires p < |url| && MarkerAt(url, p) > 0
    requires forall q :: p < q <= |url| ==> MarkerAt(url, q) == 0
    requires forall k :: p + MarkerAt(url, p) <= k < |url| ==> !IsStop(url[k])
    requires |url| - p - MarkerAt(url, p) == 11
    ensures GetYouTubeVideoId(url) == url[p + MarkerAt(url, p)..]
  {
    LineEndOfSingleLine(url);
    LastMarkerDecides(url, p);
    RunToEnd(url, p + MarkerAt(url, p));
  }

  lemma DefaultUrlChars(url: string)
    requires url == "https://www.youtube.com/watch?v=dQw4w9WgXcQ"
    ensures |url| == 43 && url[32..] == "dQw4w9WgXcQ"
    ensures url[24..32] == "watch?v="
  {
    assert url == "https://www.youtube.com/" + "watch?v=" + "dQw4w9WgXcQ";
  }

  lemma DefaultIdChars(id: string)
    requires id == "dQw4w9WgXcQ"
    ensures forall k :: 0 <= k < |id| ==> !IsStop(id[k])
  {
  }

  lemma DefaultUrlSingleLine(url: string)
    requires url == "https://www.youtube.com/watch?v=dQw4w9WgXcQ"
    ensures forall i :: 0 <= i < |url| ==> !IsLineTerminator(url[i])
  {
  }

  lemma DefaultUrlTail(url: string)
    requires url == "https://www.youtube.com/watch?v=dQw4w9WgXcQ"
    ensures |url| == 43
    ensures forall k :: 24 < k < |url| && k != 30 && k != 34 && k != 36 ==> url[k] !in "yvuew&"
    ensures url[31] == '=' && url[35] == '4' && url[37] == '9'
  {
    assert url[24..] == "watch?v=dQw4w9WgXcQ";
  }

  lemma HasAtChar(url: string, p: nat, lit: string, k: nat)
    requires HasAt(url, p, lit) && k < |lit|
    ensures p + k < |url| && url[p + k] == lit[k]
  {
    assert url[p..p + |lit|][k] == url[p + k];
  }

  /** Every alternative's second character is one of 'o', '/', 'm', 'a'
      and 'v'. */
  lemma MarkerSecondChar(url: string, q: nat)
    ensures MarkerAt(url, q) > 0 ==> q + 1 < |url| && url[q + 1] in "o/mav"
  {
    var n := MarkerAt(url, q);
    if n == 9 {
      HasAtChar(url, q, "youtu", 1);
    } else if n == 2 {
      HasAtChar(url, q, "v/", 1);
    } else if n == 6 {
      HasAtChar(url, q, "embed/", 1);
    } else if n == 8 {
      HasAtChar(url, q, "watch?v=", 1);
    } else if n == 3 {
      HasAtChar(url, q, "&v=", 1);
    }
  }

  /** So no marker starts just before any other character. */
  lemma NoMarkerBefore(url: string, q: nat)
    requires q + 1 < |url| && url[q + 1] !in "o/mav"
    ensures MarkerAt(url, q) == 0
  {
    MarkerSecondChar(url, q);
  }

  /** After "watch?v=" no marker starts in the default URL: the 'v' of
      "v=" and the two 'w's of the id are not followed by what their
      alternatives need. */
  lemma DefaultUrlNoLaterMarker(url: string)
    requires url == "https://www.youtube.com/watch?v=dQw4w9WgXcQ"
    ensures forall q :: 24 < q <= |url| ==> MarkerAt(url, q) == 0
  {
    DefaultUrlTail(url);
    forall q | 24 < q <= |url|
      ensures MarkerAt(url, q) == 0
    {
      if q == 30 || q == 34 || q == 36 {
        NoMarkerBefore(url, q);
      }
    }
  }

  /** The default workout video URL yields its id. */
  lemma DefaultVideoId(url: string)
    requires url == "https://www.youtube.com/watch?v=dQw4w9WgXcQ"
    ensures GetYouTubeVideoId(url) == "dQw4w9WgXcQ"
  {
    DefaultUrlChars(url);
    DefaultIdChars(url[32..]);
    DefaultUrlSingleLine(url);
    DefaultUrlNoLaterMarker(url);
    assert MarkerAt(url, 24) == 8 by {
      assert HasAt(url, 24, "watch?v=");
    }
    IdAtEnd(url, 24);
  }

  /** The captured run ends at the first stop character. */
  lemma RunUpTo(url: string, i: nat, j: nat)
    requires i <= j < |url| && IsStop(url[j])
    requires forall k :: i <= k < j ==> !IsStop(url[k])
    ensures Run(url, i) == url[i..j]
  {
  }

  lemma ShadowedUrlChars(url: string)
    requires url == "youtu.be/dQw4w9WgXcQ#v/x"
    ensures |url| == 24 && url[9..20] == "dQw4w9WgXcQ" && url[20] == '#' && url[23..] == "x"
    ensures forall i :: 0 <= i < |url| ==> !IsLineTerminator(url[i])
    ensures forall k :: 9 <= k < 20 ==> !IsStop(url[k])
    ensures !IsStop(url[23])
    ensures url[21..23] == "v/" && url[22] == '/' && url[23] == 'x'
  {
    assert url == "youtu.be/" + "dQw4w9WgXcQ" + "#" + "v/" + "x";
  }

  /** A later marker hides an earlier one: after "youtu.be/" the next eleven
      characters would be a valid id, but the "v/" further on is the last
      marker, and the one character after it is too short an id. */
  lemma EarlierMarkerIgnored(url: string)
    requires url == "youtu.be/dQw4w9WgXcQ#v/x"
    ensures Run(url, 9) == "dQw4w9WgXcQ"
    ensures GetYouTubeVideoId(url) == ""
  {
    ShadowedUrlChars(url);
    RunUpTo(url, 9, 20);
    LineEndOfSingleLine(url);
    assert HasAt(url, 21, "v/");
    assert MarkerAt(url, 21) == 2;
    LastMarkerDecides(url, 21);
    RunToEnd(url, 23);
  }
}

=== FILE: workout.dfy ===
/** The workout page's pure helpers: the MM:SS countdown text, the clamped
    remaining time, and the choice of video URL and title between the
    navigation state, the browser's stored values and the built-in default. */
module Workout {
  import opened Util
  import VideoPlayer

  const DefaultTitle: string := "Workout of The Day"
  const DefaultVideoUrl: string := "https://www.youtube.com/watch?v=dQw4w9WgXcQ"
  const UrlKey: string := "workout-video-url"
  const TitleKey: string := "workout-video-title"

  /** Left-pads a non-empty digit string with '0' to two characters. */
  function PadStart2(s: string): (r: string)
    requires 1 <= |s|
    ensures |r| == if |s| < 2 then 2 else |s|
    ensures r[|r| - |s|..] == s
    ensures forall i :: 0 <= i < |r| - |s| ==> r[i] == '0'
  {
    if |s| < 2 then "0" + s else s
  }

  /** One field of the countdown: the number, padded to two digits. */
  function Field(n: nat): (r: string)
    ensures 2 <= |r| && AllDigits(r)
    ensures n < 100 ==> |r| == 2
    ensures n >= 100 ==> |r| >= 3
    ensures n >= 10 ==> r[0] != '0'
  {
    PadStart2(ShowNat(n))
  }

  /** Two digit fields joined by ':'. */
  function Clock(mm: string, ss: string): (r: string)
    requires AllDigits(mm) && AllDigits(ss) && |ss| == 2
    ensures |r| == |mm| + 3 && r[|r| - 3] == ':'
    ensures forall i :: 0 <= i < |r| && i != |r| - 3 ==> IsDigit(r[i])
  {
    var r := mm + [':'] + ss;
    assert forall i :: 0 <= i < |mm| ==> r[i] == mm[i];
    assert forall j :: 0 <= j < 2 ==> r[|mm| + 1 + j] == ss[j];
    r
  }

  lemma SplitMinutes(seconds: int)
    requires seconds > 0
    ensures seconds / 60 >= 0 && 0 <= seconds % 60 < 60
    ensures seconds == 60 * (seconds / 60) + seconds % 60
    ensures seconds >= 6000 ==> seconds / 60 >= 100
  {
  }

  /** The countdown text for a number of seconds: "00:00" for anything not
      positive, otherwise whole minutes and the seconds within the minute,
      each padded to two digits; minutes are not capped. */
  function FormatTimeRemaining(seconds: int): (r: string)
    ensures seconds <= 0 ==> r == "00:00"
    ensures 5 <= |r| && r[|r| - 3] == ':'
    ensures forall i :: 0 <= i < |r| && i != |r| - 3 ==> IsDigit(r[i])
    ensures seconds >= 6000 ==> |r| >= 6
    // both fields are exactly two digits below 100 minutes
    ensures seconds < 6000 ==> |r| == 5
    // no padding beyond two digits: from ten minutes on the text starts
    // with a non-zero digit
    ensures seconds >= 600 ==> r[0] != '0'
  {
    if seconds <= 0 then "00:00"
    else
      SplitMinutes(seconds);
      Clock(Field(seconds / 60), Field(seconds % 60))
  }

  /** Reads an "MM:SS" text back as a number of seconds: the digits before the
      first ':' count minutes, the digits after it count seconds. */
  function ReadTimeRemaining(r: string): Option<int> {
    match IndexOf(r, ':')
    case None => None
    case Some(k) =>
      if AllDigits(r[..k]) && AllDigits(r[k + 1..]) then Some(60 * ReadNat(r[..k]) + ReadNat(r[k + 1..]))
      else None
  }

  lemma ReadPadded(s: string)
    requires 1 <= |s| && AllDigits(s)
    ensures AllDigits(PadStart2(s)) && ReadNat(PadStart2(s)) == ReadNat(s)
  {
    if |s| < 2 {
      ReadNatLeadingZero(s);
    }
  }

  lemma ReadClock(mm: string, ss: string)
    requires AllDigits(mm) && AllDigits(ss) && |ss| == 2
    ensures ReadTimeRemaining(Clock(mm, ss)) == Some(60 * ReadNat(mm) + ReadNat(ss))
  {
    var r := Clock(mm, ss);
    assert r == mm + [':'] + ss;
    assert forall i :: 0 <= i < |mm| ==> r[i] == mm[i];
    assert IndexOf(r, ':') == Some(|mm|);
    assert r[..|mm|] == mm;
    assert r[|mm| + 1..] == ss;
  }

  lemma ReadZeroClock()
    ensures ReadTimeRemaining("00:00") == Some(0)
  {
    assert "00:00" == Clock("00", "00");
    ReadClock("00", "00");
    assert "00"[..1] == "0";
    assert ReadNat("0") == 0;
  }

  lemma ReadField(n: nat)
    ensures ReadNat(Field(n)) == n
  {
    ReadPadded(ShowNat(n));
    ReadShowNat(n);
  }

  lemma ReadClockValues(mm: string, ss: string, m: nat, s: nat)
    requires AllDigits(mm) && AllDigits(ss) && |ss| == 2
    requires ReadNat(mm) == m && ReadNat(ss) == s
    ensures ReadTimeRemaining(Clock(mm, ss)) == Some(60 * m + s)
  {
    ReadClock(mm, ss);
  }

  lemma FieldsRead(m: nat, s: nat)
    requires s < 60
    ensures AllDigits(Field(m)) && AllDigits(Field(s)) && |Field(s)| == 2
    ensures ReadNat(Field(m)) == m && ReadNat(Field(s)) == s
  {
    ReadField(m);
    ReadField(s);
  }

  lemma ReadMinutesSeconds(m: nat, s: nat)
    requires s < 60
    ensures ReadTimeRemaining(Clock(Field(m), Field(s))) == Some(60 * m + s)
  {
    FieldsRead(m, s);
    ReadClockValues(Field(m), Field(s), m, s);
  }

  lemma ReadSplitClock(seconds: int, m: nat, s: nat)
    requires s < 60 && seconds == 60 * m + s
    ensures ReadTimeRemaining(Clock(Field(m), Field(s))) == Some(seconds)
  {
    ReadMinutesSeconds(m, s);
  }

  lemma ReadPositiveClock(seconds: int)
    requires seconds > 0
    ensures ReadTimeRemaining(FormatTimeRemaining(seconds)) == Some(seconds)
  {
    SplitMinutes(seconds);
    ReadSplitClock(seconds, seconds / 60, seconds % 60);
  }

  /** Round trip: the countdown text reads back as the clamped number of
      seconds, so for positive input exactly the input. */
  lemma FormatReadsBack(seconds: int)
    ensures ReadTimeRemaining(FormatTimeRemaining(seconds)) == Some(Max(0, seconds))
  {
    if seconds <= 0 {
      ReadZeroClock();
    } else {
      ReadPositiveClock(seconds);
    }
  }

  /** The seconds field is always exactly two digits and below 60. */
  lemma SecondsFieldInRange(seconds: int)
    ensures var r := FormatTimeRemaining(seconds);
      AllDigits(r[|r| - 2..]) && ReadNat(r[|r| - 2..]) < 60
  {
    var r := FormatTimeRemaining(seconds);
    if seconds > 0 {
      var ss := Field(seconds % 60);
      assert r[|r| - 2..] == ss;
      ReadPadded(ShowNat(seconds % 60));
      ReadShowNat(seconds % 60);
    } else {
      assert r[|r| - 2..] == "00";
      assert "00"[..1] == "0";
    }
  }

  /** One tick of `updateTimeRemaining`: the remaining time is computed only
      when the duration is known and the current time is not negative, and is
      then clamped at zero. */
  function RemainingSeconds(duration: int, current: int): (r: Option<int>)
    ensures r.Some? <==> duration > 0 && current >= 0
    ensures r.Some? ==> 0 <= r.value <= duration
    ensures r.Some? ==> (r.value == 0 <==> current >= duration)
    ensures r.Some? && r.value > 0 ==> r.value == duration - current
  {
    if duration > 0 && current >= 0 then Some(Max(0, duration - current)) else None
  }

  /** The countdown text after one tick: unchanged when no remaining time is
      computed, otherwise the formatted remaining time. */
  function TickText(duration: int, current: int, shown: string): (r: string)
    ensures !(duration > 0 && current >= 0) ==> r == shown
    ensures duration > 0 && current >= 0 ==> 5 <= |r| && r[|r| - 3] == ':'
    ensures current >= duration > 0 ==> r == "00:00"
  {
    match RemainingSeconds(duration, current)
    case None => shown
    case Some(rem) => FormatTimeRemaining(rem)
  }

  /** What a tick displays reads back as the clamped remaining time. */
  lemma TickReadsBack(duration: int, current: int, shown: string)
    requires duration > 0 && current >= 0
    ensures ReadTimeRemaining(TickText(duration, current, shown)) == Some(Max(0, duration - current))
  {
    FormatReadsBack(Max(0, duration - current));
  }

  /** Navigation state handed to the page: `content` is `None` when the
      field is missing or not a string. */
  datatype NavState = NavState(url: Option<string>, content: Option<string>)

  datatype Selection = Selection(url: string, title: string, store: map<string, string>)

  /** A title is kept only when it is a string of more than ten characters. */
  function UsableTitle(t: Option<string>): (r: string)
    ensures |r| > 10
    ensures t.Some? && |t.value| > 10 ==> r == t.value
    ensures t.None? || |t.value| <= 10 ==> r == DefaultTitle
  {
    if t.None? || |t.value| <= 10 then DefaultTitle else t.value
  }

  function Lookup(store: map<string, string>, key: string): Option<string> {
    if key in store then Some(store[key]) else None
  }

  /** The effect that chooses the video on each navigation. */
  function SelectVideo(nav: NavState, store: map<string, string>): (sel: Selection)
    ensures |sel.title| > 10
    ensures sel.url != ""
    // a URL from navigation wins and is persisted together with its title
    ensures Truthy(nav.url) ==>
      sel.store.Keys == store.Keys + {UrlKey, TitleKey}
      && sel.url == nav.url.value && sel.store[UrlKey] == sel.url && sel.store[TitleKey] == sel.title
      && (forall k :: k in store && k != UrlKey && k != TitleKey ==> sel.store[k] == store[k])
    // otherwise the stored URL, and the store is left as it was
    ensures !Truthy(nav.url) ==> sel.store == store
    ensures !Truthy(nav.url) && Truthy(Lookup(store, UrlKey)) ==> sel.url == store[UrlKey]
    // the title shown is the usable one from the same source as the URL
    ensures Truthy(nav.url) ==> sel.title == UsableTitle(nav.content)
    ensures !Truthy(nav.url) && Truthy(Lookup(store, UrlKey)) ==> sel.title == UsableTitle(Lookup(store, TitleKey))
    // otherwise the built-in default
    ensures !Truthy(nav.url) && !Truthy(Lookup(store, UrlKey)) ==>
      sel.url == DefaultVideoUrl && sel.title == DefaultTitle
  {
    var stateTitle := UsableTitle(nav.content);
    if Truthy(nav.url) then
      Selection(nav.url.value, stateTitle, store[UrlKey := nav.url.value][TitleKey := stateTitle])
    else
      var savedTitle := UsableTitle(Lookup(store, TitleKey));
      if Truthy(Lookup(store, UrlKey)) then Selection(store[UrlKey], savedTitle, store)
      else Selection(DefaultVideoUrl, DefaultTitle, store)
  }

  /** A refresh after navigating with a URL (no navigation state any more)
      shows the same video under the same title. */
  lemma RefreshShowsSameVideo(nav: NavState, store: map<string, string>)
    requires Truthy(nav.url)
    ensures var first := SelectVideo(nav, store);
      var again := SelectVideo(NavState(None, None), first.store);
      again.url == first.url && again.title == first.title && again.store == first.store
  {
    var first := SelectVideo(nav, store);
    assert Lookup(first.store, TitleKey) == Some(first.title);
  }

  /** With neither a navigation URL nor a stored one, the player gets the
      default video, and the id parser accepts it. */
  lemma DefaultSelectionPlays(nav: NavState, store: map<string, string>)
    requires !Truthy(nav.url) && !Truthy(Lookup(store, UrlKey))
    ensures VideoPlayer.GetYouTubeVideoId(SelectVideo(nav, store).url) == "dQw4w9WgXcQ"
  {
    VideoPlayer.DefaultVideoId(SelectVideo(nav, store).url);
  }
}
